=== FILE: README.md ===
# Amber feed-in price monitor — alerting and history pipeline in Dafny

This project models the decision-making core of a monitor for Amber Electric
prices. The monitor polls the Amber API for the current interval's price.
It alerts, through console and desktop channels, when the solar feed-in price
reaches a threshold, at most once every 30 minutes. It also keeps a price
history for a web dashboard: an in-memory buffer of 288 entries and a file
of up to 2016 entries.

Each component becomes pure functions over immutable datatypes. Anything that
happens outside the program is passed in as an input:

- the outcome of an HTTP exchange, with its headers;
- the clock reading;
- whether a file write succeeds;
- whether a notification channel accepts an alert;
- whether a socket is open;
- whether `cron.validate` accepts an expression, and whether zod's `url()` accepts a string.

Modules, one per component:

- `Common`: `Option`, `Result` and the sequence helpers the code uses (`slice(0, n)`, `filter`, `find`).
- `JsText`: the JavaScript built-ins whose edge cases matter here: `trim`, `split`, `parseInt` without a radix, `parseFloat`, and decimal printing.
- `AmberTypes`: the API's records.
- `IntervalSelection`: the feed-in-else-general channel choice, the current interval and the forecasts.
- `PriceMonitor`: the cooldown detector and its spacing invariant.
- `Notifier`: the fan-out to enabled channels.
- `Scheduler`: interval classification, start/stop/status and the check cycle.
- `FileStorage`: the history file as an abstract stored sequence.
- `AmberClient`: site resolution, the rate-limit interceptor and `withRetry`.
- `WebServer`: `sendPriceUpdate`, `updateUsageData` and the history load at start.
- `Config`: the environment, its defaults, the channel list and the schema.
- `RateLimitBanner`: the dashboard banner's visibility, countdown and time format.

Two behaviours of the code are worth stating up front:

- Neither history buffer deduplicates by feed time: not the dashboard buffer
  (src/server/server.ts:325) and not the file (src/storage/file-storage.ts:86).
  `WebServer.SameIntervalTwice` states that two updates seeing the same
  interval add two entries.
- `maxRetries` counts every call of `fn`, the first included
  (src/api/client.ts:199). `AmberClient.WithRetry` models that.

## Model

| member | source | states |
|---|---|---|
| IntervalSelection.TargetPrices | src/monitoring/price-monitor.ts:24-34 | the feed-in intervals when any exist, else the general ones; controlled-load intervals are never chosen, all chosen intervals share one channel, and the choice is empty exactly when every interval is controlled-load |
| IntervalSelection.CurrentOf | src/monitoring/price-monitor.ts:37-44 | the first `CurrentInterval` among the chosen intervals; none exactly when there is no current interval |
| IntervalSelection.ForecastsOf | src/server/server.ts:338 | exactly the forecast intervals among the chosen ones |
| IntervalSelection.ForecastsOfAppend | src/server/server.ts:338 | forecasts keep their original relative order: selection distributes over concatenation |
| IntervalSelection.ForecastsOfSingle | src/server/server.ts:338 | a single interval is kept exactly once when it is a forecast and dropped otherwise; with the append lemma this fixes order and multiplicity |
| PriceMonitor.AlertFor | src/monitoring/price-monitor.ts:61-72 | the alert carries the current interval itself, its `perKwh` as the price, its spot price, descriptor, renewables, estimate flag, feed time and end time, its start time as the alert's `timestamp`, and the configured threshold |
| PriceMonitor.CheckFeedInPrices | src/monitoring/price-monitor.ts:14-106 | a failed fetch is rethrown unchanged; an alert is returned iff a current interval exists, its price is at least the threshold, and the monitor never alerted or the last alert is at least 30·60·1000 ms old; an alert sets the last-alert time to now, anything else leaves the state unchanged |
| PriceMonitor.StepMatchesCheck | src/monitoring/price-monitor.ts:56-59 | the one-step transition used for runs agrees with the check, and a failed fetch neither alerts nor moves the state |
| PriceMonitor.StepFacts | src/monitoring/price-monitor.ts:58-59 | an alerting step records the clock reading and was allowed by the gate; any other step changes nothing |
| PriceMonitor.AlertsAreSpaced | src/monitoring/price-monitor.ts:56-106 | over any run of checks and any clock readings, every alert is at least 30 minutes after the previous one and after the starting state's last alert, so any two alerts are at least 30 minutes apart |
| PriceMonitor.SpacedAfterHead | src/monitoring/price-monitor.ts:104-105 | prepending a time that is a cooldown before every later alert keeps the alert times spaced |
| PriceMonitor.ReplayRemembersLastAlert | src/monitoring/price-monitor.ts:59 | after a run the monitor remembers the time of the run's last alert, or its starting value when the run raised none |
| PriceMonitor.CooldownScenario | src/monitoring/price-monitor.ts:56-89 | with threshold 15: a price of 16 alerts, 20 ten minutes later is suppressed by the cooldown, 16 at 31 minutes alerts again |
| PriceMonitor.GeneralFallback | src/monitoring/price-monitor.ts:26-29 | with no feed-in channel, a general current interval at or above the threshold raises the alert, carrying that interval |
| Notifier.DefaultChannels | src/notifications/notifier.ts:11-14 | the channel list is console then desktop, each enabled exactly when its name is configured |
| Notifier.EnabledDefaultChannels | src/notifications/notifier.ts:21 | the enabled channels are exactly the configured ones among console and desktop, in list order |
| Notifier.Notify | src/notifications/notifier.ts:20-60 | no channel is contacted when none is enabled; otherwise each enabled channel, in order, is sent the same alert exactly once whatever the others do; the call always returns, successes are counted, and successes plus failures equal the number of enabled channels |
| Scheduler.ClassifyInterval | src/scheduler/scheduler.ts:26-47 | a string ending in `s` is accepted iff `parseInt` of its prefix is a number of at least 1, giving that many seconds, and is otherwise rejected as an invalid interval; any other string is accepted iff the cron validator accepts it, and is otherwise rejected as an invalid cron expression |
| Scheduler.SecondsIntervalAccepted | src/scheduler/scheduler.ts:26-30 | `"<n>s"` with a positive decimal `n` takes the seconds path with exactly `n` |
| Scheduler.DefaultIntervalIsCron | src/scheduler/scheduler.ts:45-47 | the default `*/5 * * * *` takes the cron path |
| Scheduler.Start | src/scheduler/scheduler.ts:22-69 | a rejected interval throws and leaves nothing registered; the seconds path registers a timer with period seconds·1000 ms, the cron path a task with the configured timezone; only then is the scheduler running; the monitor state is untouched |
| Scheduler.StartKeepsValid | src/scheduler/scheduler.ts:22-69 | a successful start keeps the invariant on the scheduler's own fields: it reports running exactly when it holds a handle, and a held timer asks for a positive whole number of seconds |
| Scheduler.Stop | src/scheduler/scheduler.ts:102-113 | both handles cleared and the running flag lowered, restoring the invariant |
| Scheduler.StopIsIdempotent | src/scheduler/scheduler.ts:102-120 | stopping twice equals stopping once, and `getStatus` then reports not running |
| Scheduler.CheckPrices | src/scheduler/scheduler.ts:82-97 | one cycle calls `notify` exactly when the monitor returned an alert, never throws, reports a failed fetch and leaves the state alone, and otherwise leaves the handles untouched and moves only the monitor state |
| FileStorage.LoadHistory | src/storage/file-storage.ts:41-54 | the stored records, or an empty list when the file is missing or cannot be read or parsed |
| FileStorage.SaveHistory | src/storage/file-storage.ts:60-76 | a successful write stores exactly the first min(length, maxRecords) records in order; a failed write is rethrown |
| FileStorage.SaveLoadRoundTrip | src/storage/file-storage.ts:43-67 | loading after a successful save yields the records truncated to the capacity, and all of them when they fit |
| FileStorage.AppendRecord | src/storage/file-storage.ts:81-94 | the new record is first and the previous contents follow in order, cut to the capacity; a write failure is rethrown |
| FileStorage.AppendAllKeepsNewest | src/storage/file-storage.ts:83-89 | appending records one by one leaves the newest `maxRecords` of them, newest first, ahead of the older contents; nothing is merged or deduplicated |
| FileStorage.TakeAppendTake | src/storage/file-storage.ts:63 | cutting the old list to the capacity before prepending does not change what a later cut keeps |
| FileStorage.OverflowKeepsNewest | src/storage/file-storage.ts:63-89 | appending more records than the capacity to an empty store leaves exactly capacity records, newest first, so the oldest are the ones dropped |
| FileStorage.CapacityScenario | src/storage/file-storage.ts:63-89 | 500 appends into a store of capacity 288 leave exactly 288 records, the last appended first |
| FileStorage.GetHistoryRange | src/storage/file-storage.ts:99-111 | exactly the stored records whose time lies in [start, end], in stored order; empty when the file cannot be read |
| FileStorage.GetHistoryRangeAppend | src/storage/file-storage.ts:99-111 | a range query over two concatenated histories is the concatenation of the two queries, so matches keep their stored order |
| FileStorage.GetHistoryRangeSingle | src/storage/file-storage.ts:99-111 | a single record is returned exactly once when its time lies in [start, end], and otherwise not at all; with the append lemma this fixes order and multiplicity |
| FileStorage.Cleanup | src/storage/file-storage.ts:116-131 | the file is rewritten only when it holds more than maxRecords records, keeping the first maxRecords; a failed rewrite is swallowed, and the file is taken to be left as it was |
| FileStorage.CleanupBoundsAndSettles | src/storage/file-storage.ts:118-122 | after a successful cleanup the file fits the capacity and a second cleanup does nothing |
| AmberClient.RecordRateLimit | src/api/client.ts:29-56 | a success stores the three raw header values (absent stays absent); an error with a response stores them with absent or empty values nulled; an error without a response keeps the previous value |
| AmberClient.LastWriteWins | src/api/client.ts:38-53 | once an exchange has a response, the previously remembered value has no influence |
| AmberClient.RecordAllLastResponseWins | src/api/client.ts:38-55 | over a run of exchanges the remembered value is the one recorded by the last exchange that had a response |
| AmberClient.NetworkFailuresKeep | src/api/client.ts:48 | exchanges without a response leave the remembered value as it was |
| AmberClient.ChosenSiteId | src/api/client.ts:90 | the explicit site id when it is non-empty, else the configured one when non-empty, else none |
| AmberClient.ResolveSite | src/api/client.ts:90-102 | with a chosen id no request is made; otherwise the site list is fetched, a failure is rethrown, no active site throws, and else the id of the first active site is used, so a list with an active site always succeeds |
| AmberClient.GetCurrentPrices | src/api/client.ts:80-117 | a chosen id is queried directly and the reply returned or rethrown; otherwise a failure to resolve the site is rethrown with no further request, and a resolved site is queried and its reply returned or rethrown |
| AmberClient.GetUsage | src/api/client.ts:151-187 | the same for the usage request |
| AmberClient.FetchForSite | src/api/client.ts:104-116 | a resolution failure is rethrown before any site request; otherwise the resolved site is queried and its reply returned or rethrown, with its rate limit recorded |
| AmberClient.SameSiteResolution | src/api/client.ts:161-172 | prices and usage resolve the site by the same rule: same requests before their own, same failure, same site |
| AmberClient.RequestMethodsRethrow | src/api/client.ts:63-186 | every request method rethrows a failed exchange with its status, after its rate limit is recorded |
| AmberClient.BackoffSchedule | src/api/client.ts:206 | the wait after failed attempt i is baseDelay·2^i |
| AmberClient.BackoffDoubles | src/api/client.ts:206 | each wait is twice the previous one |
| AmberClient.DefaultBackoff | src/api/client.ts:194-206 | with the defaults the waits are 1000 and 2000 ms |
| AmberClient.WithRetry | src/api/client.ts:192-217 | `fn` is called at most maxRetries times; the first success is returned after only failures; if all fail, exactly maxRetries calls were made and the last error is rethrown (`undefined` when maxRetries ≤ 0); one wait follows each failed attempt except the final one |
| WebServer.RateLimitField | src/server/server.ts:367-371 | `parseInt` of the header when it is non-empty, else null |
| WebServer.RateLimitFieldOfCount | src/server/server.ts:367-371 | a header holding a decimal count is pushed as that count |
| WebServer.CurrentViewOf | src/server/server.ts:341-350 | the pushed current view carries the interval's price, spot price, descriptor, renewables, spike status, end time and feed time, and `estimate` is true exactly when the interval says true |
| WebServer.PushHistory | src/server/server.ts:325-330 | the conditional cut after the prepend equals taking the first 288: the buffer stays within 288, newest first, older entries in order |
| WebServer.SendPriceUpdate | src/server/server.ts:291-388 | a failed fetch changes nothing and sends nothing; otherwise the history gains a record only when a current interval exists and is handed to storage only then; the message carries the current view, the forecasts in order, the new history and the parsed rate limit; a given socket alone receives it, else each open client once, in client order |
| WebServer.UpdateBoundsHistory | src/server/server.ts:314-330 | after an update with a current interval the buffer holds 1 to 288 entries, the new one first and the previous ones after it |
| WebServer.SameIntervalTwice | src/server/server.ts:325 | two updates seeing the same interval add two entries with the same feed time |
| WebServer.StartServer | src/server/server.ts:390-396 | the buffer starts as whatever the file holds |
| WebServer.StartThenUpdate | src/server/server.ts:390-396 | whatever length the loaded history has, the first update with a current interval leaves at most 288 entries: the new record, then the newest loaded ones |
| WebServer.LoadedHistoryMayExceedCap | src/server/server.ts:395-396 | a loaded history of 2016 entries stays above 288 until the next prepend cuts it to 288 |
| WebServer.UsageRecordOf | src/server/server.ts:439-445 | missing kWh and cost become 0, a missing or empty quality becomes `estimated` |
| WebServer.UpdateUsageData | src/server/server.ts:421-453 | only a non-empty response replaces the usage buffer, with its first 288 rows and their defaults filled in; an empty response or a failed fetch leaves it alone |
| Config.OrDefault | src/config/config.ts:10-17 | an unset or empty variable takes the default |
| Config.TrimAll | src/config/config.ts:22 | each piece trimmed, order kept |
| Config.ParseChannelList | src/config/config.ts:20-23 | every parsed channel name is non-empty, has no surrounding white space and no comma |
| Config.ParseJoinedPieces | src/config/config.ts:20-23 | for any comma-free pieces joined with commas, the parse is every piece trimmed, in order, with the empty ones dropped, so a padded name is kept in trimmed form |
| Config.ParseChannelListJoin | src/config/config.ts:20-23 | round trip: joining trimmed, non-empty, comma-free names with commas and parsing gives the names back in order |
| Config.ParseJoinedNames | src/config/config.ts:21-23 | the same for a non-empty list of names |
| Config.ParseEmptyChannelList | src/config/config.ts:23 | an empty list names no channel |
| Config.ChannelsFromEnv | src/config/config.ts:20 | a set, non-empty variable is parsed as given |
| Config.DefaultChannelsAreBoth | src/config/config.ts:20 | an unset or empty variable selects console then desktop |
| Config.LogLevelOf | src/config/types.ts:18 | exactly the five levels are accepted |
| Config.RawConfigOf | src/config/config.ts:8-29 | the schema input: each of the base URL, check interval, timezone and log level is the variable when it is set and non-empty, and its default otherwise; the API key defaults to empty; the threshold is `parseFloat` of the variable or of `15.0`; channels parsed; `pretty` only for `true` |
| Config.ChannelIssues | src/config/types.ts:15 | one issue per unknown channel name, none exactly when every name is console or desktop |
| Config.Issues | src/config/types.ts:3-20 | one issue per broken constraint: empty API key, a base URL that is not a URL, a threshold that is not a positive number, an empty interval, an unknown level |
| Config.NoIssuesIffValid | src/config/types.ts:3-20 | the schema reports nothing exactly when the object satisfies every constraint |
| Config.LoadConfig | src/config/config.ts:7-38 | loading succeeds exactly when the schema holds, and then the key is non-empty, the URL valid, the threshold positive, the interval non-empty and every channel known, and every field is the schema input's, the log level as its parsed level; otherwise it fails with exactly the schema's issues, at least one |
| Config.DefaultThresholdValue | src/config/config.ts:15 | the default threshold text reads as 15 |
| JsText.ParseFloatDecimal | src/config/config.ts:15 | `parseFloat` of a `<digits>.<digits>` literal is its exact decimal value, whole part plus fraction over a power of ten |
| Config.DefaultsApply | src/config/config.ts:10-28 | with only the API key set, loading yields threshold 15, interval `*/5 * * * *`, timezone Australia/Sydney, the Amber base URL, console and desktop, level info, not pretty |
| Config.MissingKeyFails | src/config/types.ts:5 | an unset or empty API key aborts loading |
| RateLimitBanner.Countdown | web/src/components/RateLimitBanner.tsx:15-34 | never negative, 0 without a rate limit or a (non-zero) reset time, and otherwise the seconds from the current whole second until the reset, 0 once it has passed |
| RateLimitBanner.CountdownNonIncreasing | web/src/components/RateLimitBanner.tsx:22-25 | as the clock advances the countdown never increases and drops by at most the elapsed whole seconds plus one |
| RateLimitBanner.Banner | web/src/components/RateLimitBanner.tsx:36-77 | hidden exactly when there is no rate limit, `remaining` is null or above 10; the exceeded variant exactly when `remaining` is 0, with the formatted countdown; the low variant shows the given remaining count and limit, no reset note when `reset` is null, the text `0` exactly when it is 0, and the countdown otherwise |
| RateLimitBanner.FormatTimeShowsMinutes | web/src/components/RateLimitBanner.tsx:42-50 | minutes appear exactly from 60 seconds on, and the text ends in the seconds unit |
| RateLimitBanner.ParseFormatTime | web/src/components/RateLimitBanner.tsx:42-50 | round trip: the formatted text reads back as the number of seconds, so minutes are s div 60 and seconds s mod 60 |
| RateLimitBanner.ParseSecondsOnly | web/src/components/RateLimitBanner.tsx:49 | the same below one minute, where the text is `"<s>s"` |
| RateLimitBanner.ParseMinutesAndSeconds | web/src/components/RateLimitBanner.tsx:46-48 | the same from one minute on, where the text is `"<m>m <s>s"` |

The JavaScript built-ins are modelled in `JsText`. Their contracts and
round trips support the rows above:

- `Trim` ensures its result is trimmed and that trimmed text is left alone.
- `JoinSplit` and `SplitJoin` show that `Split` inverts `Join`.
- `ParseIntNatToString` shows that `parseInt` reads back printed decimals.

## Left out

- Network, file and socket I/O, timers and `node-cron` scheduling are inputs or absent. So are `Promise.allSettled` concurrency, the express routes, logging, and the low-rate-limit log warning (src/api/client.ts:40-42).
- Notifier.Notify: sends run one after another. Their concurrency is not modelled. Each channel's success is an input, since the channel bodies call node-notifier or the logger.
- `cron.validate` and zod's `url()` are predicates supplied by the caller. Their grammars are not modelled.
- JavaScript numbers: prices and thresholds are exact reals. Double rounding is not modelled, nor `parseInt`/`parseFloat` precision beyond exact values. `Infinity` and `NaN` are modelled only where `parseFloat` can produce them.
- PriceMonitor.CheckFeedInPrices: the threshold is a real. A configured threshold of `Infinity`, which the schema admits, is not modelled; such a threshold would never alert.
- JsText.ParseFloat: it carries no contract of its own. Its facts are the lemma `ParseFloatDecimal`, plus the NaN cases stated on `UnsignedFloat` and `DecimalPrefix`. Exponent suffixes are read, but no lemma covers them.
- Scheduler.Start: the timer handle records the delay `start` asks `setInterval` for, seconds·1000 ms. Node runs any delay above 2147483647 ms as 1 ms, so from `2147484s` upward the real timer fires every millisecond. That runtime clamp is not modelled.
- Scheduler.Start: a second `start` on a running scheduler overwrites the stored timer or task without clearing it (src/scheduler/scheduler.ts:37-56). In the source the earlier timer or task keeps firing, and `stop` can no longer reach it. The model tracks only the scheduler's fields, so that orphaned timer is not represented. The program itself calls `start` once (src/index.ts:57-64).
- FileStorage.Cleanup: a failed write is assumed to leave the previous file intact. The source rewrites the file in place (src/storage/file-storage.ts:65), so a failure part-way could leave an empty or partial file that `loadHistory` reads as `[]`. The same assumption underlies the failure paths of `FileStorage.SaveHistory`, `FileStorage.AppendRecord` and `WebServer.SendPriceUpdate`.
- Dates: history timestamps are integers (milliseconds). The ISO strings, `new Date(...)` parsing and invalid dates in `getHistoryRange` are not modelled.
- FileStorage: `maxRecords` is a natural number. A negative value would make `slice` behave differently; the constructor is never given one. The file's JSON is assumed to decode to a list of records; other JSON values are not modelled. `init` (directory creation) is I/O.
- WebServer: the unawaited `saveHistory` is modelled as the list handed to it. Its outcome is logged and does not affect the buffer. A send to a given socket is modelled as delivery whatever that socket's state. The connected clients are a sequence in iteration order, taken to list each socket once as the server's client set does.
- AmberClient: query parameters (`next`, `previous`, `resolution`, dates) are not modelled. An interval's fields are taken as decoded.
- RateLimitBanner: the React state and the one-second refresh are modelled as the countdown at the current clock reading. Styling and icons are not modelled.
- The settings rewrite of `.env`, authentication, the Vercel handlers under api/, the other React components, the service worker and the bootstrap are outside this model. The Vercel prices handler (api/prices.ts:68) has no general-channel fallback and is not part of this model.

=== FILE: amber_types.dfy ===
/** The Amber price API's records, as the client receives them. Prices are
    in cents per kWh and are only ever compared, so `real` stands in for
    JavaScript numbers. */
module AmberTypes {
  import opened Common

  datatype ChannelType = General | ControlledLoad | FeedIn

  /** The `type` tag that distinguishes the three interval shapes. */
  datatype IntervalKind = ActualInterval | ForecastInterval | CurrentInterval

  datatype SpikeStatus = NoSpike | PotentialSpike | SpikeNow

  /** Price severity labels, from lowest to highest. */
  datatype PriceDescriptor = Negative | ExtremelyLow | VeryLow | Low | Neutral | High | Spike

  /** One price interval. `estimate` is only sent on current intervals. */
  datatype Interval = Interval(
    kind: IntervalKind,
    duration: nat,
    spotPerKwh: real,
    perKwh: real,
    date: string,
    nemTime: string,
    startTime: string,
    endTime: string,
    renewables: real,
    channelType: ChannelType,
    spikeStatus: SpikeStatus,
    descriptor: PriceDescriptor,
    estimate: Option<bool>)

  datatype SiteStatus = Pending | Active | Closed

  datatype Site = Site(id: string, nmi: string, network: string, status: SiteStatus)

  /** One usage row as the API returns it; any field may be absent. */
  datatype UsageItem = UsageItem(
    kwh: Option<real>,
    cost: Option<real>,
    nemTime: string,
    channelType: ChannelType,
    quality: Option<string>)

  /** Why a client call threw: no active site to query, or a failed HTTP
      exchange (with the status when a response arrived). */
  datatype ApiError = NoActiveSites | RequestFailed(status: Option<int>)
}

=== FILE: api_client.dfy ===
/** The Amber API client's own logic: which site a request goes to, the
    rate-limit headers it remembers, and the retry-with-backoff wrapper.
    Each HTTP exchange is an input (`Reply`), its timing and transport are
    not modelled. */
module AmberClient {
  import opened Common
  import opened AmberTypes

  /** Response headers, by lower-case name. */
  type Headers = map<string, string>

  const LimitHeader: string := "ratelimit-limit"
  const RemainingHeader: string := "ratelimit-remaining"
  const ResetHeader: string := "ratelimit-reset"

  /** `lastRateLimit`: the three rate-limit header values of the latest
      exchange that had a response; `None` is a missing or null value. */
  datatype RateLimit = RateLimit(limit: Option<string>, remaining: Option<string>, reset: Option<string>)

  const NoRateLimit: RateLimit := RateLimit(None, None, None)

  /** The error side of an exchange carries a response (status and headers)
      when the server answered, and none on a network failure. */
  datatype ErrorResponse = ErrorResponse(status: int, headers: Headers)

  /** The outcome of one HTTP exchange. */
  datatype Reply<T> = Ok(headers: Headers, data: T) | Err(response: Option<ErrorResponse>)

  /** A header's value, `None` when absent. */
  function Header(h: Headers, name: string): (r: Option<string>)
    ensures r.Some? <==> name in h
    ensures r.Some? ==> r.value == h[name]
  {
    if name in h then Some(h[name]) else None
  }

  /** A header's value; an absent or empty header becomes `None`. */
  function HeaderOrNull(h: Headers, name: string): (r: Option<string>)
    ensures r.Some? <==> name in h && h[name] != ""
    ensures r.Some? ==> r.value == h[name]
  {
    if name in h && h[name] != "" then Some(h[name]) else None
  }

  /** The response interceptor's effect on `lastRateLimit`. A success stores
      the raw header values (an empty value stays empty); an error with a
      response stores them with absent or empty values nulled; an error
      without a response leaves the previous value in place. */
  function RecordRateLimit<T>(last: RateLimit, reply: Reply<T>): (r: RateLimit)
    ensures reply.Ok? ==>
      && (r.limit.Some? <==> LimitHeader in reply.headers)
      && (r.remaining.Some? <==> RemainingHeader in reply.headers)
      && (r.reset.Some? <==> ResetHeader in reply.headers)
      && (r.limit.Some? ==> r.limit.value == reply.headers[LimitHeader])
      && (r.remaining.Some? ==> r.remaining.value == reply.headers[RemainingHeader])
      && (r.reset.Some? ==> r.reset.value == reply.headers[ResetHeader])
    ensures reply.Err? && reply.response.Some? ==>
      var h := reply.response.value.headers;
      && (r.limit.Some? <==> LimitHeader in h && h[LimitHeader] != "")
      && (r.remaining.Some? <==> RemainingHeader in h && h[RemainingHeader] != "")
      && (r.reset.Some? <==> ResetHeader in h && h[ResetHeader] != "")
      && (r.limit.Some? ==> r.limit.value == h[LimitHeader])
      && (r.remaining.Some? ==> r.remaining.value == h[RemainingHeader])
      && (r.reset.Some? ==> r.reset.value == h[ResetHeader])
    ensures reply.Err? && reply.response.None? ==> r == last
  {
    match reply
    case Ok(h, _) => RateLimit(Header(h, LimitHeader), Header(h, RemainingHeader), Header(h, ResetHeader))
    case Err(Some(resp)) =>
      RateLimit(HeaderOrNull(resp.headers, LimitHeader), HeaderOrNull(resp.headers, RemainingHeader),
                HeaderOrNull(resp.headers, ResetHeader))
    case Err(None) => last
  }

  /** Last write wins: once an exchange has a response, what was remembered
      before it no longer matters. */
  lemma LastWriteWins<T>(a: RateLimit, b: RateLimit, reply: Reply<T>)
    requires reply.Ok? || reply.response.Some?
    ensures RecordRateLimit(a, reply) == RecordRateLimit(b, reply)
  {
  }

  /** A run of exchanges, each folded into the remembered rate limit. */
  function RecordAll<T>(last: RateLimit, replies: seq<Reply<T>>): RateLimit
    decreases |replies|
  {
    if |replies| == 0 then last else RecordAll(RecordRateLimit(last, replies[0]), replies[1..])
  }

  /** Over a run, the remembered value is the one recorded by the last
      exchange that had a response; network failures after it are invisible. */
  lemma {:induction false} RecordAllLastResponseWins<T>(last: RateLimit, replies: seq<Reply<T>>, k: nat)
    requires k < |replies| && (replies[k].Ok? || replies[k].response.Some?)
    requires forall j :: k < j < |replies| ==> replies[j].Err? && replies[j].response.None?
    ensures RecordAll(last, replies) == RecordRateLimit(last, replies[k])
    decreases |replies|
  {
    if k == 0 {
      NetworkFailuresKeep(RecordRateLimit(last, replies[0]), replies[1..]);
    } else {
      RecordAllLastResponseWins(RecordRateLimit(last, replies[0]), replies[1..], k - 1);
      LastWriteWins(RecordRateLimit(last, replies[0]), last, replies[k]);
    }
  }

  lemma {:induction false} NetworkFailuresKeep<T>(last: RateLimit, replies: seq<Reply<T>>)
    requires forall j :: 0 <= j < |replies| ==> replies[j].Err? && replies[j].response.None?
    ensures RecordAll(last, replies) == last
    decreases |replies|
  {
    if |replies| > 0 {
      NetworkFailuresKeep(last, replies[1..]);
    }
  }

  /** What a failed exchange rethrows. */
  function ErrorOf<T>(reply: Reply<T>): (e: ApiError)
    requires reply.Err?
    ensures e.RequestFailed? && (e.status.Some? <==> reply.response.Some?)
  {
    match reply.response
    case Some(resp) => RequestFailed(Some(resp.status))
    case None => RequestFailed(None)
  }

  /** What a request method returns or rethrows. */
  function Outcome<T>(reply: Reply<T>): (r: Result<T, ApiError>)
    ensures r.Success? <==> reply.Ok?
    ensures r.Success? ==> r.value == reply.data
    ensures r.Failure? ==> r.error == ErrorOf(reply)
  {
    match reply
    case Ok(_, data) => Success(data)
    case Err(_) => Failure(ErrorOf(reply))
  }

  /** A request method's result, the rate limit it leaves behind, and the
      request paths it issued, in order. */
  datatype Call<T> = Call(result: Result<T, ApiError>, rateLimit: RateLimit, paths: seq<string>)

  /** JavaScript truthiness of an optional string. */
  predicate Truthy(v: Option<string>) { v.Some? && v.value != "" }

  /** The site to query: the explicit id when it is non-empty, else the
      configured id when that is non-empty, else none. */
  function ChosenSiteId(explicit: Option<string>, configured: Option<string>): (r: Option<string>)
    ensures r.None? <==> !Truthy(explicit) && !Truthy(configured)
    ensures Truthy(explicit) ==> r == explicit
    ensures !Truthy(explicit) && Truthy(configured) ==> r == configured
  {
    if Truthy(explicit) then explicit else if Truthy(configured) then configured else None
  }

  predicate IsActive(s: Site) { s.status == Active }

  /** `getSites()`. */
  function GetSites(last: RateLimit, reply: Reply<seq<Site>>): Call<seq<Site>> {
    Call(Outcome(reply), RecordRateLimit(last, reply), ["/sites"])
  }

  /** Site resolution shared by `getCurrentPrices` and `getUsage`: the
      explicit id, else the configured id, else (after fetching the site
      list) the first active site; no active site throws. */
  function ResolveSite(last: RateLimit, explicit: Option<string>, configured: Option<string>,
                       sitesReply: Reply<seq<Site>>): (r: Call<string>)
    ensures ChosenSiteId(explicit, configured).Some? ==>
              r == Call(Success(ChosenSiteId(explicit, configured).value), last, [])
    ensures ChosenSiteId(explicit, configured).None? ==>
      && r.paths == ["/sites"]
      && r.rateLimit == RecordRateLimit(last, sitesReply)
      && (sitesReply.Err? ==> r.result == Failure(ErrorOf(sitesReply)))
      && (sitesReply.Ok? ==>
            && (r.result.Success? || r.result == Failure(NoActiveSites))
            && (r.result == Failure(NoActiveSites) <==> forall i :: 0 <= i < |sitesReply.data| ==> sitesReply.data[i].status != Active)
            && (r.result.Success? ==>
                  exists k :: 0 <= k < |sitesReply.data| && sitesReply.data[k].id == r.result.value
                              && sitesReply.data[k].status == Active
                              && forall j :: 0 <= j < k ==> sitesReply.data[j].status != Active))
  {
    match ChosenSiteId(explicit, configured)
    case Some(id) => Call(Success(id), last, [])
    case None =>
      var sites := GetSites(last, sitesReply);
      match sites.result
      case Failure(e) => Call(Failure(e), sites.rateLimit, sites.paths)
      case Success(list) =>
        match Find(list, IsActive)
        case None => Call(Failure(NoActiveSites), sites.rateLimit, sites.paths)
        case Some(site) => Call(Success(site.id), sites.rateLimit, sites.paths)
  }

  /** A request to `/sites/<id><suffix>` after resolving the site. `reply`
      gives the exchange's outcome for each site id. */
  function FetchForSite<T>(last: RateLimit, explicit: Option<string>, configured: Option<string>,
                           sitesReply: Reply<seq<Site>>, suffix: string, reply: string -> Reply<T>)
    : (r: Call<T>)
    ensures var site := ResolveSite(last, explicit, configured, sitesReply);
      && (site.result.Failure? ==> r == Call(Failure(site.result.error), site.rateLimit, site.paths))
      && (site.result.Success? ==>
            var id := site.result.value;
            && r.result == Outcome(reply(id))
            && r.rateLimit == RecordRateLimit(site.rateLimit, reply(id))
            && r.paths == site.paths + ["/sites/" + id + suffix])
  {
    var site := ResolveSite(last, explicit, configured, sitesReply);
    match site.result
    case Failure(e) => Call(Failure(e), site.rateLimit, site.paths)
    case Success(id) =>
      var x := reply(id);
      Call(Outcome(x), RecordRateLimit(site.rateLimit, x), site.paths + ["/sites/" + id + suffix])
  }

  const CurrentPricesSuffix: string := "/prices/current"
  const UsageSuffix: string := "/usage"

  /** `getCurrentPrices(siteId)`. */
  function GetCurrentPrices(last: RateLimit, explicit: Option<string>, configured: Option<string>,
                            sitesReply: Reply<seq<Site>>, pricesReply: string -> Reply<seq<Interval>>)
    : (r: Call<seq<Interval>>)
    ensures ChosenSiteId(explicit, configured).Some? ==>
      var id := ChosenSiteId(explicit, configured).value;
      r == Call(Outcome(pricesReply(id)), RecordRateLimit(last, pricesReply(id)), ["/sites/" + id + CurrentPricesSuffix])
    ensures var site := ResolveSite(last, explicit, configured, sitesReply);
      && (site.result.Failure? ==> r.result == Failure(site.result.error) && r.paths == site.paths)
      && (site.result.Success? ==>
            && r.result == Outcome(pricesReply(site.result.value))
            && r.paths == site.paths + ["/sites/" + site.result.value + CurrentPricesSuffix])
  {
    FetchForSite(last, explicit, configured, sitesReply, CurrentPricesSuffix, pricesReply)
  }

  /** `getUsage(siteId)`. */
  function GetUsage(last: RateLimit, explicit: Option<string>, configured: Option<string>,
                    sitesReply: Reply<seq<Site>>, usageReply: string -> Reply<seq<UsageItem>>)
    : (r: Call<seq<UsageItem>>)
    ensures ChosenSiteId(explicit, configured).Some? ==>
      var id := ChosenSiteId(explicit, configured).value;
      r == Call(Outcome(usageReply(id)), RecordRateLimit(last, usageReply(id)), ["/sites/" + id + UsageSuffix])
    ensures var site := ResolveSite(last, explicit, configured, sitesReply);
      && (site.result.Failure? ==> r.result == Failure(site.result.error) && r.paths == site.paths)
      && (site.result.Success? ==>
            && r.result == Outcome(usageReply(site.result.value))
            && r.paths == site.paths + ["/sites/" + site.result.value + UsageSuffix])
  {
    FetchForSite(last, explicit, configured, sitesReply, UsageSuffix, usageReply)
  }

  /** Both site-scoped requests resolve the site by the same rule: given the
      same inputs, they query the same site and fail the same way before
      their own request. */
  lemma SameSiteResolution(last: RateLimit, explicit: Option<string>, configured: Option<string>,
                           sitesReply: Reply<seq<Site>>, pricesReply: string -> Reply<seq<Interval>>,
                           usageReply: string -> Reply<seq<UsageItem>>)
    ensures var p := GetCurrentPrices(last, explicit, configured, sitesReply, pricesReply);
            var u := GetUsage(last, explicit, configured, sitesReply, usageReply);
            var site := ResolveSite(last, explicit, configured, sitesReply);
      && p.paths[..|site.paths|] == u.paths[..|site.paths|] == site.paths
      && (site.result.Failure? ==> p.result.Failure? && u.result.Failure? && p.result.error == u.result.error)
      && (site.result.Success? ==>
            p.paths[|site.paths|] == "/sites/" + site.result.value + CurrentPricesSuffix
            && u.paths[|site.paths|] == "/sites/" + site.result.value + UsageSuffix)
  {
  }

  /** `getPrices(siteId)`: no resolution, the given id is used as is. */
  function GetPrices(last: RateLimit, siteId: string, reply: Reply<seq<Interval>>): Call<seq<Interval>> {
    Call(Outcome(reply), RecordRateLimit(last, reply), ["/sites/" + siteId + "/prices"])
  }

  /** Every request method rethrows a failed exchange: the caller sees the
      failure, with the HTTP status when a response arrived, and the
      interceptor has already recorded its rate limit. */
  lemma RequestMethodsRethrow(last: RateLimit, siteId: string, explicit: Option<string>, configured: Option<string>,
                              sitesReply: Reply<seq<Site>>, pricesReply: Reply<seq<Interval>>,
                              usageReply: Reply<seq<UsageItem>>, status: int, h: Headers)
    requires pricesReply == Err(Some(ErrorResponse(status, h)))
    requires usageReply == Err(Some(ErrorResponse(status, h)))
    ensures GetSites(last, Err(Some(ErrorResponse(status, h)))).result == Failure(RequestFailed(Some(status)))
    ensures GetPrices(last, siteId, pricesReply).result == Failure(RequestFailed(Some(status)))
    ensures GetCurrentPrices(last, explicit, configured, sitesReply, _ => pricesReply).result.Failure?
    ensures GetUsage(last, explicit, configured, sitesReply, _ => usageReply).result.Failure?
    ensures GetPrices(last, siteId, pricesReply).rateLimit.limit == HeaderOrNull(h, LimitHeader)
    ensures GetSites(last, Err(None)).rateLimit == last
  {
  }

  function Pow2(n: nat): (r: nat)
    ensures r >= 1
  {
    if n == 0 then 1 else 2 * Pow2(n - 1)
  }

  /** The waits after the first `n` failed attempts: `base * 2^i` after
      attempt `i`. */
  function BackoffSchedule(base: int, n: nat): (r: seq<int>)
    ensures |r| == n
    ensures forall i :: 0 <= i < n ==> r[i] == base * Pow2(i)
  {
    seq(n, i requires 0 <= i => base * Pow2(i))
  }

  /** The defaults wait one and then two seconds. */
  lemma DefaultBackoff()
    ensures BackoffSchedule(1000, 2) == [1000, 2000]
  {
    assert Pow2(1) == 2;
  }

  /** Each wait doubles the one before. */
  lemma BackoffDoubles(base: int, n: nat, i: nat)
    requires 0 < i < n
    ensures BackoffSchedule(base, n)[i] == 2 * BackoffSchedule(base, n)[i - 1]
  {
  }

  /** What `withRetry` did: the value it returned or the error it threw
      (`None` when it made no attempt and threw `undefined`), how many times
      it called `fn`, and the waits it asked for, in order. */
  datatype RetryOutcome<T, E> =
    | RetrySuccess(value: T, calls: nat, delays: seq<int>)
    | RetryFailure(lastError: Option<E>, calls: nat, delays: seq<int>)

  /** `withRetry(fn, maxRetries, baseDelay)`, where `attempt(i)` is the
      outcome of the `i`-th call of `fn`. `maxRetries` counts all calls, not
      only the repeats. */
  method WithRetry<T, E>(attempt: nat -> Result<T, E>, maxRetries: int, baseDelay: int)
    returns (r: RetryOutcome<T, E>)
    ensures r.calls <= Max(maxRetries, 0)
    ensures r.RetrySuccess? ==>
      && r.calls >= 1
      && attempt(r.calls - 1) == Success(r.value)
      && forall i :: 0 <= i < r.calls - 1 ==> attempt(i).Failure?
    ensures r.RetryFailure? ==>
      && r.calls == Max(maxRetries, 0)
      && (forall i :: 0 <= i < r.calls ==> attempt(i).Failure?)
      && (r.calls == 0 <==> r.lastError.None?)
      && (r.calls > 0 ==> r.lastError == Some(attempt(r.calls - 1).error))
    ensures r.delays == BackoffSchedule(baseDelay, Max(r.calls - 1, 0))
  {
    var lastError: Option<E> := None;
    var delays: seq<int> := [];
    var i: nat := 0;
    while i < maxRetries
      invariant i <= Max(maxRetries, 0)
      invariant forall j :: 0 <= j < i ==> attempt(j).Failure?
      invariant i == 0 <==> lastError.None?
      invariant i > 0 ==> lastError == Some(attempt(i - 1).error)
      invariant delays == BackoffSchedule(baseDelay, if i < maxRetries then i else Max(i - 1, 0))
      decreases maxRetries - i
    {
      var outcome := attempt(i);
      if outcome.Success? {
        return RetrySuccess(outcome.value, i + 1, delays);
      }
      lastError := Some(outcome.error);
      if i < maxRetries - 1 {
        delays := delays + [baseDelay * Pow2(i)];
      }
      i := i + 1;
    }
    r := RetryFailure(lastError, i, delays);
  }
}

=== FILE: common.dfy ===
/** Failure-compatible wrappers and the few sequence operations the
    monitor's TypeScript uses everywhere: `slice(0, n)`, `filter` and `find`. */
module Common {

  /** `T | null` / `T | undefined` in the source. */
  datatype Option<+T> = None | Some(value: T)

  /** A call that either returns a value or throws an error. */
  datatype Result<+T, +E> = Success(value: T) | Failure(error: E)

  function Min(a: int, b: int): int { if a <= b then a else b }

  function Max(a: int, b: int): int { if a <= b then b else a }

  /** `s.slice(0, n)` for a non-negative `n`: the first `n` elements, or all
      of them when there are fewer. */
  function Take<T>(s: seq<T>, n: nat): (r: seq<T>)
    ensures |r| == Min(|s|, n)
    ensures r == s[..|r|]
    ensures |s| <= n ==> r == s
  {
    if |s| <= n then s else s[..n]
  }

  /** `s.filter(p)`: the elements satisfying `p`, in their original order. */
  function Filter<T>(s: seq<T>, p: T -> bool): (r: seq<T>)
    ensures |r| <= |s|
    ensures forall x :: x in r ==> x in s && p(x)
    ensures forall x :: x in s && p(x) ==> x in r
    ensures |r| == 0 <==> forall i :: 0 <= i < |s| ==> !p(s[i])
  {
    if |s| == 0 then []
    else
      var rest := Filter(s[1..], p);
      assert forall i :: 1 <= i < |s| ==> s[i] == s[1..][i - 1];
      if p(s[0]) then [s[0]] + rest else rest
  }

  /** Filtering distributes over concatenation, so relative order is kept. */
  lemma {:induction false} FilterAppend<T>(a: seq<T>, b: seq<T>, p: T -> bool)
    ensures Filter(a + b, p) == Filter(a, p) + Filter(b, p)
  {
    if |a| == 0 {
      assert a + b == b;
    } else {
      assert (a + b)[1..] == a[1..] + b;
      FilterAppend(a[1..], b, p);
    }
  }

  /** A one-element sequence keeps its element exactly when it satisfies `p`. */
  lemma FilterSingle<T>(x: T, p: T -> bool)
    ensures Filter([x], p) == if p(x) then [x] else []
  {
    assert [x][1..] == [];
  }

  /** Filtering keeps everything exactly when every element qualifies. */
  lemma {:induction false} FilterAll<T>(s: seq<T>, p: T -> bool)
    ensures Filter(s, p) == s <==> forall i :: 0 <= i < |s| ==> p(s[i])
  {
    if |s| == 0 {
    } else {
      var tail := s[1..];
      FilterAll(tail, p);
      assert s == [s[0]] + tail;
      if !p(s[0]) {
        assert Filter(s, p) == Filter(tail, p);
        assert |Filter(s, p)| <= |tail| < |s|;
      } else {
        assert Filter(s, p) == [s[0]] + Filter(tail, p);
        assert (forall i :: 0 <= i < |s| ==> p(s[i])) <==> (forall i :: 0 <= i < |tail| ==> p(tail[i])) by {
          assert forall i :: 1 <= i < |s| ==> s[i] == tail[i - 1];
        }
      }
    }
  }

  /** The index `s.findIndex(p)` would report, or `None` for -1. */
  function FindFirst<T>(s: seq<T>, p: T -> bool): (r: Option<nat>)
    ensures r.Some? ==> r.value < |s| && p(s[r.value])
                        && forall j :: 0 <= j < r.value ==> !p(s[j])
    ensures r.None? <==> forall j :: 0 <= j < |s| ==> !p(s[j])
  {
    if |s| == 0 then None
    else if p(s[0]) then Some(0)
    else
      match FindFirst(s[1..], p)
      case None => None
      case Some(k) => Some(k + 1)
  }

  /** `s.find(p)`: the first element satisfying `p`. */
  function Find<T>(s: seq<T>, p: T -> bool): (r: Option<T>)
    ensures r.None? <==> forall j :: 0 <= j < |s| ==> !p(s[j])
    ensures r.Some? ==> exists k :: 0 <= k < |s| && s[k] == r.value && p(r.value)
                                    && forall j :: 0 <= j < k ==> !p(s[j])
  {
    match FindFirst(s, p)
    case None => None
    case Some(k) => Some(s[k])
  }

  /** The first element satisfying `p` is the head of the filtered sequence. */
  lemma {:induction false} FindIsFilterHead<T>(s: seq<T>, p: T -> bool)
    ensures Find(s, p).Some? <==> |Filter(s, p)| > 0
    ensures Find(s, p).Some? ==> Find(s, p).value == Filter(s, p)[0]
  {
    if |s| != 0 && !p(s[0]) {
      FindIsFilterHead(s[1..], p);
      assert forall j :: 0 <= j < |s| - 1 ==> s[1..][j] == s[j + 1];
    }
  }

  function Reverse<T>(s: seq<T>): (r: seq<T>)
    ensures |r| == |s|
    ensures forall i :: 0 <= i < |s| ==> r[i] == s[|s| - 1 - i]
  {
    if |s| == 0 then [] else Reverse(s[1..]) + [s[0]]
  }
}

=== FILE: config.dfy ===
/** Loading the configuration from the environment: defaults for unset or
    empty variables, the comma-separated channel list, and the schema the
    result must satisfy.
    The environment is an input; whether a string is a URL is a predicate
    supplied by the caller. */
module Config {
  import opened Common
  import opened JsText

  /** The environment variables read, `None` when unset. */
  datatype Env = Env(
    apiKey: Option<string>,
    siteId: Option<string>,
    baseUrl: Option<string>,
    feedInThreshold: Option<string>,
    checkInterval: Option<string>,
    timezone: Option<string>,
    notificationChannels: Option<string>,
    logLevel: Option<string>,
    logPretty: Option<string>)

  const DefaultBaseUrl: string := "https://api.amber.com.au/v1"
  const DefaultThreshold: string := "15.0"
  const DefaultCheckInterval: string := "*/5 * * * *"
  const DefaultTimezone: string := "Australia/Sydney"
  const DefaultChannelList: string := "console,desktop"
  const DefaultLogLevel: string := "info"

  /** An unset or empty variable takes the fallback. */
  function OrDefault(v: Option<string>, fallback: string): (r: string)
    ensures v.Some? && v.value != "" ==> r == v.value
    ensures v.None? || v.value == "" ==> r == fallback
  {
    if v.Some? && v.value != "" then v.value else fallback
  }

  predicate NonEmpty(s: string) { s != "" }

  /** Every piece trimmed, in order. */
  function TrimAll(pieces: seq<string>): (r: seq<string>)
    ensures |r| == |pieces|
    ensures forall i :: 0 <= i < |pieces| ==> r[i] == Trim(pieces[i])
    ensures (forall i :: 0 <= i < |pieces| ==> IsTrimmed(pieces[i])) ==> r == pieces
  {
    seq(|pieces|, i requires 0 <= i < |pieces| => Trim(pieces[i]))
  }

  /** A comma-separated list: split at every comma, each piece trimmed, and
      the pieces left empty dropped. */
  function ParseChannelList(list: string): (r: seq<string>)
    ensures forall c :: c in r ==> c != "" && IsTrimmed(c) && ',' !in c
  {
    var pieces := Split(list, ',');
    var trimmed := TrimAll(pieces);
    forall i | 0 <= i < |trimmed| ensures ',' !in trimmed[i] {
      TrimIsInfix(pieces[i]);
    }
    Filter(trimmed, NonEmpty)
  }

  /** Parsing any comma-free pieces joined with commas trims every piece and
      drops those left empty; padded names are kept, not discarded. */
  lemma ParseJoinedPieces(pieces: seq<string>)
    requires |pieces| >= 1
    requires forall i :: 0 <= i < |pieces| ==> ',' !in pieces[i]
    ensures ParseChannelList(Join(pieces, ',')) == Filter(TrimAll(pieces), NonEmpty)
  {
    SplitJoin(pieces, ',');
  }

  /** The trimmed text is a slice of the original. */
  lemma TrimIsInfix(s: string)
    ensures forall c :: c in Trim(s) ==> c in s
  {
    var t := TrimStart(s);
    assert forall c :: c in TrimEnd(t) ==> c in t;
    assert forall c :: c in t ==> c in s;
  }

  /** Round trip: joining channel names that are non-empty, trimmed and free
      of commas, then parsing, gives the names back in order. */
  lemma ParseChannelListJoin(names: seq<string>)
    requires forall i :: 0 <= i < |names| ==> names[i] != "" && IsTrimmed(names[i]) && ',' !in names[i]
    ensures ParseChannelList(Join(names, ',')) == names
  {
    if |names| == 0 {
      assert Join(names, ',') == "";
      ParseEmptyChannelList();
    } else {
      ParseJoinedNames(names);
    }
  }

  lemma ParseJoinedNames(names: seq<string>)
    requires |names| >= 1
    requires forall i :: 0 <= i < |names| ==> names[i] != "" && IsTrimmed(names[i]) && ',' !in names[i]
    ensures ParseChannelList(Join(names, ',')) == names
  {
    SplitJoin(names, ',');
    KeepTrimmedNames(names);
    ParseSplitPieces(Join(names, ','), names);
  }

  lemma ParseSplitPieces(list: string, names: seq<string>)
    requires Split(list, ',') == names
    requires Filter(TrimAll(names), NonEmpty) == names
    ensures ParseChannelList(list) == names
  {
  }

  lemma KeepTrimmedNames(names: seq<string>)
    requires forall i :: 0 <= i < |names| ==> names[i] != "" && IsTrimmed(names[i])
    ensures Filter(TrimAll(names), NonEmpty) == names
  {
    FilterAll(names, NonEmpty);
  }

  /** An empty list names no channel. */
  lemma ParseEmptyChannelList()
    ensures ParseChannelList("") == []
  {
    assert Split("", ',') == [""];
    assert IsTrimmed("");
    assert TrimAll([""]) == [""];
  }

  /** The configured channel list, or console and desktop when it is unset
      or empty, parsed. */
  function ChannelsFromEnv(v: Option<string>): (r: seq<string>)
    ensures v.Some? && v.value != "" ==> r == ParseChannelList(v.value)
  {
    ParseChannelList(OrDefault(v, DefaultChannelList))
  }

  /** An unset or empty variable selects both channels, console first. */
  lemma DefaultChannelsAreBoth(v: Option<string>)
    requires v.None? || v.value == ""
    ensures ChannelsFromEnv(v) == ["console", "desktop"]
  {
    assert Join(["console", "desktop"], ',') == DefaultChannelList;
    assert IsTrimmed("console") && IsTrimmed("desktop");
    ParseChannelListJoin(["console", "desktop"]);
  }

  datatype LogLevel = Trace | Debug | Info | Warn | Error

  function LogLevelOf(s: string): (r: Option<LogLevel>)
    ensures r.Some? <==> s in ["trace", "debug", "info", "warn", "error"]
    ensures r == Some(Info) <==> s == "info"
  {
    if s == "trace" then Some(Trace)
    else if s == "debug" then Some(Debug)
    else if s == "info" then Some(Info)
    else if s == "warn" then Some(Warn)
    else if s == "error" then Some(Error)
    else None
  }

  /** The object handed to the schema, after the defaults for unset or
      empty variables. */
  datatype RawConfig = RawConfig(
    apiKey: string,
    siteId: Option<string>,
    baseUrl: string,
    feedInThreshold: JsNumber,
    checkInterval: string,
    timezone: string,
    channels: seq<string>,
    logLevel: string,
    logPretty: bool)

  function RawConfigOf(env: Env): (r: RawConfig)
    ensures r.apiKey == OrDefault(env.apiKey, "") && r.siteId == env.siteId
    ensures r.feedInThreshold == ParseFloat(OrDefault(env.feedInThreshold, DefaultThreshold))
    ensures r.channels == ChannelsFromEnv(env.notificationChannels)
    ensures r.baseUrl == OrDefault(env.baseUrl, DefaultBaseUrl)
    ensures r.checkInterval == OrDefault(env.checkInterval, DefaultCheckInterval)
    ensures r.timezone == OrDefault(env.timezone, DefaultTimezone)
    ensures r.logLevel == OrDefault(env.logLevel, DefaultLogLevel)
    ensures r.checkInterval != "" && r.logLevel != "" && r.baseUrl != "" && r.timezone != ""
    ensures r.logPretty <==> env.logPretty == Some("true")
  {
    RawConfig(OrDefault(env.apiKey, ""), env.siteId, OrDefault(env.baseUrl, DefaultBaseUrl),
              ParseFloat(OrDefault(env.feedInThreshold, DefaultThreshold)),
              OrDefault(env.checkInterval, DefaultCheckInterval), OrDefault(env.timezone, DefaultTimezone),
              ChannelsFromEnv(env.notificationChannels), OrDefault(env.logLevel, DefaultLogLevel),
              env.logPretty == Some("true"))
  }

  /** A positive JavaScript number: NaN fails the number check, and
      `positive()` admits positive infinity. */
  predicate IsPositive(n: JsNumber) {
    (n.Finite? && n.v > 0.0) || n == Infinite(true)
  }

  predicate IsKnownChannel(c: string) { c == "console" || c == "desktop" }

  /** The schema's constraints. */
  predicate ValidConfig(raw: RawConfig, isUrl: string -> bool) {
    && raw.apiKey != ""
    && isUrl(raw.baseUrl)
    && IsPositive(raw.feedInThreshold)
    && |raw.checkInterval| >= 1
    && (forall i :: 0 <= i < |raw.channels| ==> IsKnownChannel(raw.channels[i]))
    && LogLevelOf(raw.logLevel).Some?
  }

  /** A schema violation, as the parse error lists them. */
  datatype Issue =
    | MissingApiKey
    | InvalidBaseUrl
    | ThresholdNotPositive
    | EmptyCheckInterval
    | UnknownChannel(index: nat)
    | UnknownLogLevel

  function ChannelIssues(channels: seq<string>, from: nat): (r: seq<Issue>)
    ensures forall x :: x in r ==> x.UnknownChannel? && from <= x.index < from + |channels|
    ensures |r| == 0 <==> forall i :: 0 <= i < |channels| ==> IsKnownChannel(channels[i])
    decreases |channels|
  {
    if |channels| == 0 then []
    else
      var rest := ChannelIssues(channels[1..], from + 1);
      assert forall i :: 1 <= i < |channels| ==> channels[i] == channels[1..][i - 1];
      (if IsKnownChannel(channels[0]) then [] else [UnknownChannel(from)]) + rest
  }

  /** Every constraint the raw object breaks. */
  function Issues(raw: RawConfig, isUrl: string -> bool): (r: seq<Issue>)
    ensures MissingApiKey in r <==> raw.apiKey == ""
    ensures InvalidBaseUrl in r <==> !isUrl(raw.baseUrl)
    ensures ThresholdNotPositive in r <==> !IsPositive(raw.feedInThreshold)
    ensures EmptyCheckInterval in r <==> raw.checkInterval == ""
    ensures UnknownLogLevel in r <==> LogLevelOf(raw.logLevel).None?
  {
    var fields := FieldIssues(raw, isUrl);
    var channels := ChannelIssues(raw.channels, 0);
    var level := When(LogLevelOf(raw.logLevel).None?, UnknownLogLevel);
    assert forall x :: x in channels ==> x.UnknownChannel?;
    fields + channels + level
  }

  /** The issues of the scalar fields that precede the channel list. */
  function FieldIssues(raw: RawConfig, isUrl: string -> bool): (r: seq<Issue>)
    ensures MissingApiKey in r <==> raw.apiKey == ""
    ensures InvalidBaseUrl in r <==> !isUrl(raw.baseUrl)
    ensures ThresholdNotPositive in r <==> !IsPositive(raw.feedInThreshold)
    ensures EmptyCheckInterval in r <==> raw.checkInterval == ""
    ensures UnknownLogLevel !in r
    ensures forall x :: x in r ==> !x.UnknownChannel?
  {
    var key := When(raw.apiKey == "", MissingApiKey);
    var url := When(!isUrl(raw.baseUrl), InvalidBaseUrl);
    var threshold := When(!IsPositive(raw.feedInThreshold), ThresholdNotPositive);
    var interval := When(raw.checkInterval == "", EmptyCheckInterval);
    key + url + threshold + interval
  }

  /** The issue `x` when `broken` holds. */
  function When(broken: bool, x: Issue): (r: seq<Issue>)
    ensures forall y :: y in r <==> broken && y == x
  {
    if broken then [x] else []
  }

  /** The schema reports nothing exactly when the object is valid. */
  lemma NoIssuesIffValid(raw: RawConfig, isUrl: string -> bool)
    ensures |Issues(raw, isUrl)| == 0 <==> ValidConfig(raw, isUrl)
  {
    var r := Issues(raw, isUrl);
    if |r| == 0 {
      assert |ChannelIssues(raw.channels, 0)| == 0;
    }
  }

  /** The parsed configuration. */
  datatype AppConfig = AppConfig(
    apiKey: string,
    siteId: Option<string>,
    baseUrl: string,
    feedInThreshold: JsNumber,
    checkInterval: string,
    timezone: string,
    channels: seq<string>,
    logLevel: LogLevel,
    logPretty: bool)

  /** `loadConfig()`: the parsed configuration, or the issues that make the
      process exit. */
  function LoadConfig(env: Env, isUrl: string -> bool): (r: Result<AppConfig, seq<Issue>>)
    ensures r.Success? <==> ValidConfig(RawConfigOf(env), isUrl)
    ensures r.Failure? ==> |r.error| >= 1
    ensures r.Success? ==>
      && r.value.apiKey != ""
      && isUrl(r.value.baseUrl)
      && IsPositive(r.value.feedInThreshold)
      && |r.value.checkInterval| >= 1
      && (forall c :: c in r.value.channels ==> IsKnownChannel(c))
      && r.value.channels == ChannelsFromEnv(env.notificationChannels)
      && r.value.siteId == env.siteId
    ensures r.Success? ==>
      var raw := RawConfigOf(env);
      && r.value.apiKey == raw.apiKey && r.value.baseUrl == raw.baseUrl
      && r.value.feedInThreshold == raw.feedInThreshold
      && r.value.checkInterval == raw.checkInterval && r.value.timezone == raw.timezone
      && Some(r.value.logLevel) == LogLevelOf(raw.logLevel)
      && r.value.logPretty == raw.logPretty
    ensures r.Failure? ==> r.error == Issues(RawConfigOf(env), isUrl)
  {
    var raw := RawConfigOf(env);
    var issues := Issues(raw, isUrl);
    NoIssuesIffValid(raw, isUrl);
    if |issues| > 0 then Failure(issues)
    else
      Success(AppConfig(raw.apiKey, raw.siteId, raw.baseUrl, raw.feedInThreshold, raw.checkInterval,
                        raw.timezone, raw.channels, LogLevelOf(raw.logLevel).value, raw.logPretty))
  }

  /** The default threshold text reads as 15. */
  lemma DefaultThresholdValue()
    ensures ParseFloat(DefaultThreshold) == Finite(15.0)
  {
    DefaultThresholdParts();
    ParseFloatDecimal("15", "0");
    DefaultMantissa();
  }

  lemma DefaultThresholdParts()
    ensures DefaultThreshold == "15" + "." + "0"
  {
  }

  lemma DefaultMantissa()
    ensures AllDigits("15", 10) && AllDigits("0", 10)
    ensures Mantissa("15", "0") == 15.0
  {
    assert DigitsValue("15", 10) == 15 by {
      assert "15"[..1] == "1" && "1"[..0] == "";
    }
    assert DigitsValue("0", 10) == 0 by {
      assert "0"[..0] == "";
    }
    assert Pow10(1) == 10.0;
  }

  /** With only the API key set (and the default base URL accepted as a
      URL), loading succeeds with every default. */
  lemma DefaultsApply(key: string, isUrl: string -> bool)
    requires key != "" && isUrl(DefaultBaseUrl)
    ensures var r := LoadConfig(Env(Some(key), None, None, None, None, None, None, None, None), isUrl);
      && r.Success?
      && r.value.apiKey == key && r.value.siteId.None?
      && r.value.baseUrl == DefaultBaseUrl
      && r.value.feedInThreshold == Finite(15.0)
      && r.value.checkInterval == DefaultCheckInterval
      && r.value.timezone == DefaultTimezone
      && r.value.channels == ["console", "desktop"]
      && r.value.logLevel == Info
      && !r.value.logPretty
  {
    var env := Env(Some(key), None, None, None, None, None, None, None, None);
    DefaultThresholdValue();
    DefaultChannelsAreBoth(None);
    var raw := RawConfigOf(env);
    assert raw == RawConfig(key, None, DefaultBaseUrl, Finite(15.0), DefaultCheckInterval, DefaultTimezone,
                            ["console", "desktop"], DefaultLogLevel, false);
    assert LogLevelOf(raw.logLevel) == Some(Info);
    assert raw.channels[0] == "console" && raw.channels[1] == "desktop";
    assert |raw.channels| == 2;
    forall i | 0 <= i < |raw.channels| ensures IsKnownChannel(raw.channels[i]) {
      assert i == 0 || i == 1;
    }
    assert IsPositive(raw.feedInThreshold);
    assert ValidConfig(raw, isUrl);
    NoIssuesIffValid(raw, isUrl);
    assert |Issues(raw, isUrl)| == 0;
  }

  /** A missing API key, or one set to the empty string, aborts loading
      whatever else is set. */
  lemma MissingKeyFails(env: Env, isUrl: string -> bool)
    requires env.apiKey.None? || env.apiKey.value == ""
    ensures LoadConfig(env, isUrl).Failure?
    ensures MissingApiKey in LoadConfig(env, isUrl).error
  {
  }
}

=== FILE: file_storage.dfy ===
/** The durable price history: one file holding the records newest first,
    capped at `maxRecords`. The file is an abstract value and the outcome of
    each write is an input; JSON encoding is outside the model. */
module FileStorage {
  import opened Common
  import opened AmberTypes

  /** 42 days of 30-minute intervals. */
  const DefaultMaxRecords: nat := 2016

  /** One stored observation. `timestamp` is the capture time (milliseconds)
      the record's ISO string denotes; `channelType` is optional. */
  datatype PriceHistoryRecord = PriceHistoryRecord(
    price: real,
    nemTime: string,
    descriptor: PriceDescriptor,
    renewables: real,
    timestamp: int,
    channelType: Option<ChannelType>)

  /** The history file: absent, present but unreadable or not parseable, or
      holding a sequence of records. */
  datatype HistoryFile = Missing | Unreadable | Stored(records: seq<PriceHistoryRecord>)

  datatype StorageError = WriteFailed

  datatype FileStorage = FileStorage(maxRecords: nat)

  /** `loadHistory()`: the stored records, or `[]` when the file is missing
      and likewise on any other read or parse failure; it never throws. */
  function LoadHistory(file: HistoryFile): (r: seq<PriceHistoryRecord>)
    ensures file.Stored? ==> r == file.records
    ensures !file.Stored? ==> r == []
  {
    match file
    case Stored(records) => records
    case _ => []
  }

  /** `saveHistory(records)`: writes the first `maxRecords` records, or
      rethrows the write failure (`writeOk` is whether the write succeeds). */
  function SaveHistory(st: FileStorage, records: seq<PriceHistoryRecord>, writeOk: bool)
    : (r: Result<HistoryFile, StorageError>)
    ensures r.Success? <==> writeOk
    ensures r.Failure? ==> r.error == WriteFailed
    ensures r.Success? ==>
      && r.value.Stored?
      && |r.value.records| == Min(|records|, st.maxRecords)
      && r.value.records == records[..|r.value.records|]
  {
    if writeOk then Success(Stored(Take(records, st.maxRecords))) else Failure(WriteFailed)
  }

  /** Round trip: reading back a successful save yields the records saved,
      truncated to the capacity. */
  lemma SaveLoadRoundTrip(st: FileStorage, records: seq<PriceHistoryRecord>)
    ensures LoadHistory(SaveHistory(st, records, true).value) == Take(records, st.maxRecords)
    ensures |records| <= st.maxRecords ==> LoadHistory(SaveHistory(st, records, true).value) == records
  {
  }

  /** `appendRecord(record)`: loads, puts `record` in front of everything
      loaded, and saves; a write failure is rethrown. */
  function AppendRecord(st: FileStorage, file: HistoryFile, record: PriceHistoryRecord, writeOk: bool)
    : (r: Result<HistoryFile, StorageError>)
    ensures r.Success? <==> writeOk
    ensures r.Success? && st.maxRecords >= 1 ==>
      var stored := LoadHistory(r.value);
      && |stored| >= 1
      && stored[0] == record
      && stored[1..] == Take(LoadHistory(file), st.maxRecords - 1)
    ensures r.Success? && st.maxRecords == 0 ==> LoadHistory(r.value) == []
  {
    SaveHistory(st, [record] + LoadHistory(file), writeOk)
  }

  /** Appending `records` one after another (each write succeeding) leaves
      the newest `maxRecords` of them, newest first, ahead of the older
      contents. Nothing is merged or deduplicated. */
  function AppendAll(st: FileStorage, file: HistoryFile, records: seq<PriceHistoryRecord>): HistoryFile
    decreases |records|
  {
    if |records| == 0 then file
    else AppendAll(st, AppendRecord(st, file, records[0], true).value, records[1..])
  }

  lemma AppendRecordTakes(st: FileStorage, file: HistoryFile, record: PriceHistoryRecord)
    ensures AppendRecord(st, file, record, true) == Success(Stored(Take([record] + LoadHistory(file), st.maxRecords)))
  {
  }

  /** One more append, seen on the lists: the older appends' survivors are
      re-truncated together with the new head. */
  lemma KeepsNewestStep<T>(n: nat, rev: seq<T>, x: T, before: seq<T>)
    ensures Take(rev + Take([x] + before, n), n) == Take((rev + [x]) + before, n)
  {
    TakeAppendTake(rev, [x] + before, n);
    assert rev + ([x] + before) == (rev + [x]) + before;
  }

  lemma {:induction false} AppendAllKeepsNewest(st: FileStorage, file: HistoryFile,
                                                records: seq<PriceHistoryRecord>)
    requires |records| >= 1
    ensures LoadHistory(AppendAll(st, file, records)) == Take(Reverse(records) + LoadHistory(file), st.maxRecords)
    decreases |records|
  {
    AppendRecordTakes(st, file, records[0]);
    var first := AppendRecord(st, file, records[0], true).value;
    assert LoadHistory(first) == Take([records[0]] + LoadHistory(file), st.maxRecords);
    assert AppendAll(st, file, records) == AppendAll(st, first, records[1..]);
    if |records| == 1 {
      assert Reverse(records) == [records[0]];
    } else {
      AppendAllKeepsNewest(st, first, records[1..]);
      assert Reverse(records) == Reverse(records[1..]) + [records[0]];
      KeepsNewestStep(st.maxRecords, Reverse(records[1..]), records[0], LoadHistory(file));
    }
  }

  /** Truncating the tail before a prefix is added does not change the
      truncated result. */
  lemma TakeAppendTake<T>(a: seq<T>, b: seq<T>, n: nat)
    ensures Take(a + Take(b, n), n) == Take(a + b, n)
  {
    if |a| < n && n < |b| + |a| {
      assert (a + b)[..n] == a + b[..n - |a|];
      assert Take(b, n)[..n - |a|] == b[..n - |a|];
      assert (a + Take(b, n))[..n] == a + Take(b, n)[..n - |a|];
    } else if n <= |a| {
      assert (a + b)[..n] == a[..n];
      assert (a + Take(b, n))[..n] == a[..n];
    }
  }

  /** Overfilling an empty store leaves exactly its capacity, the most
      recently appended record first. */
  lemma OverflowKeepsNewest(cap: nat, records: seq<PriceHistoryRecord>)
    requires 1 <= cap <= |records|
    ensures var stored := LoadHistory(AppendAll(FileStorage(cap), Missing, records));
      && |stored| == cap
      && forall i :: 0 <= i < cap ==> stored[i] == records[|records| - 1 - i]
  {
    AppendAllKeepsNewest(FileStorage(cap), Missing, records);
    var rev := Reverse(records);
    assert rev + LoadHistory(Missing) == rev;
    var stored := Take(rev, cap);
    assert |stored| == cap && stored == rev[..cap];
  }

  /** A worked example: appending 500 records to an empty store
      of capacity 288 leaves exactly 288, the most recently appended first. */
  lemma CapacityScenario(records: seq<PriceHistoryRecord>)
    requires |records| == 500
    ensures var stored := LoadHistory(AppendAll(FileStorage(288), Missing, records));
      && |stored| == 288
      && forall i :: 0 <= i < 288 ==> stored[i] == records[499 - i]
  {
    OverflowKeepsNewest(288, records);
  }

  /** `getHistoryRange(start, end)`: the loaded records whose capture time
      lies in `[start, end]`, in stored order. */
  function GetHistoryRange(file: HistoryFile, start: int, end: int): (r: seq<PriceHistoryRecord>)
    ensures forall x :: x in r ==> x in LoadHistory(file) && start <= x.timestamp <= end
    ensures forall x :: x in LoadHistory(file) && start <= x.timestamp <= end ==> x in r
    ensures !file.Stored? ==> r == []
  {
    Filter(LoadHistory(file), Window(start, end))
  }

  /** Whether a record's capture time lies in `[start, end]`. */
  function Window(start: int, end: int): PriceHistoryRecord -> bool {
    (x: PriceHistoryRecord) => start <= x.timestamp <= end
  }

  /** A range query over a concatenation is the concatenation of the
      queries, so matches keep their stored order. */
  lemma GetHistoryRangeAppend(a: seq<PriceHistoryRecord>, b: seq<PriceHistoryRecord>, start: int, end: int)
    ensures GetHistoryRange(Stored(a + b), start, end)
            == GetHistoryRange(Stored(a), start, end) + GetHistoryRange(Stored(b), start, end)
  {
    FilterAppend(a, b, Window(start, end));
  }

  /** A single record is returned once when it lies in the range and
      otherwise not at all; with the lemma above this fixes the result. */
  lemma GetHistoryRangeSingle(x: PriceHistoryRecord, start: int, end: int)
    ensures GetHistoryRange(Stored([x]), start, end) == if start <= x.timestamp <= end then [x] else []
  {
    assert [x][1..] == [];
  }

  /** `cleanup()`: rewrites the file only when it holds more than
      `maxRecords` records, keeping the first `maxRecords`; a failed rewrite
      is swallowed, and the file is taken to be left as it was. */
  function Cleanup(st: FileStorage, file: HistoryFile, writeOk: bool): (r: HistoryFile)
    ensures |LoadHistory(file)| <= st.maxRecords ==> r == file
    ensures |LoadHistory(file)| > st.maxRecords && writeOk ==>
              r == Stored(LoadHistory(file)[..st.maxRecords])
    ensures !writeOk ==> r == file
  {
    var history := LoadHistory(file);
    var trimmed := Take(history, st.maxRecords);
    if |trimmed| < |history| then
      match SaveHistory(st, trimmed, writeOk)
      case Success(f) => f
      case Failure(_) => file
    else file
  }

  /** After a successful cleanup the file is within capacity, and a second
      cleanup does nothing. */
  lemma CleanupBoundsAndSettles(st: FileStorage, file: HistoryFile)
    ensures |LoadHistory(Cleanup(st, file, true))| <= st.maxRecords
    ensures Cleanup(st, Cleanup(st, file, true), true) == Cleanup(st, file, true)
  {
  }
}

=== FILE: interval_selection.dfy ===
/** Choosing which intervals to look at: the feed-in channel if the account
    has one, otherwise the general channel; then the current interval and
    the forecasts among them. The price monitor and the dashboard server
    both apply this rule. */
module IntervalSelection {
  import opened Common
  import opened AmberTypes

  predicate IsFeedIn(p: Interval) { p.channelType == FeedIn }

  predicate IsGeneral(p: Interval) { p.channelType == General }

  predicate IsCurrent(p: Interval) { p.kind == CurrentInterval }

  predicate IsForecast(p: Interval) { p.kind == ForecastInterval }

  /** The feed-in intervals when there are any, else the general ones. */
  function TargetPrices(prices: seq<Interval>): (r: seq<Interval>)
    ensures (exists i :: 0 <= i < |prices| && prices[i].channelType == FeedIn) ==>
              r == Filter(prices, IsFeedIn)
    ensures (forall i :: 0 <= i < |prices| ==> prices[i].channelType != FeedIn) ==>
              r == Filter(prices, IsGeneral)
    ensures forall x :: x in r ==> x in prices && x.channelType != ControlledLoad
    ensures forall x, y :: x in r && y in r ==> x.channelType == y.channelType
    ensures |r| == 0 <==> forall i :: 0 <= i < |prices| ==> prices[i].channelType == ControlledLoad
  {
    var feedIn := Filter(prices, IsFeedIn);
    if |feedIn| > 0 then feedIn else Filter(prices, IsGeneral)
  }

  /** The first current interval among the target prices. */
  function CurrentOf(target: seq<Interval>): (r: Option<Interval>)
    ensures r.None? <==> forall i :: 0 <= i < |target| ==> target[i].kind != CurrentInterval
    ensures r.Some? ==> exists k :: 0 <= k < |target| && target[k] == r.value
                                    && r.value.kind == CurrentInterval
                                    && forall j :: 0 <= j < k ==> target[j].kind != CurrentInterval
  {
    Find(target, IsCurrent)
  }

  /** The forecast intervals among the target prices, in their original order. */
  function ForecastsOf(target: seq<Interval>): (r: seq<Interval>)
    ensures forall x :: x in r ==> x in target && x.kind == ForecastInterval
    ensures forall x :: x in target && x.kind == ForecastInterval ==> x in r
  {
    Filter(target, IsForecast)
  }

  /** Forecasts keep their relative order: selecting from a concatenation
      concatenates the selections. */
  lemma ForecastsOfAppend(a: seq<Interval>, b: seq<Interval>)
    ensures ForecastsOf(a + b) == ForecastsOf(a) + ForecastsOf(b)
  {
    FilterAppend(a, b, IsForecast);
  }

  /** A single interval is kept once when it is a forecast and dropped
      otherwise; with the lemma above this fixes order and multiplicity. */
  lemma ForecastsOfSingle(x: Interval)
    ensures ForecastsOf([x]) == if x.kind == ForecastInterval then [x] else []
  {
    FilterSingle(x, IsForecast);
  }
}

=== FILE: js_text.dfy ===
/** The JavaScript string built-ins the monitor relies on: `trim`,
    `split` on a one-character separator, `parseInt` without a radix,
    `parseFloat`, and the decimal rendering of a non-negative integer
    used by template strings. */
module JsText {
  import opened Common

  /** The code points JavaScript counts as WhiteSpace or LineTerminator:
      the ones `trim()` strips and `parseInt`/`parseFloat` skip. */
  predicate IsJsSpace(c: char) {
    var n := c as int;
    n == 0x09 || n == 0x0A || n == 0x0B || n == 0x0C || n == 0x0D || n == 0x20
    || n == 0xA0 || n == 0x1680 || (0x2000 <= n <= 0x200A) || n == 0x2028
    || n == 0x2029 || n == 0x202F || n == 0x205F || n == 0x3000 || n == 0xFEFF
  }

  predicate IsDecimalDigit(c: char) { '0' <= c <= '9' }

  /** `s.trimStart()`: the suffix left after dropping leading white space. */
  function TrimStart(s: string): (r: string)
    ensures |r| <= |s| && r == s[|s| - |r|..]
    ensures forall i :: 0 <= i < |s| - |r| ==> IsJsSpace(s[i])
    ensures |r| > 0 ==> !IsJsSpace(r[0])
  {
    if |s| > 0 && IsJsSpace(s[0]) then TrimStart(s[1..]) else s
  }

  /** `s.trimEnd()`: the prefix left after dropping trailing white space. */
  function TrimEnd(s: string): (r: string)
    ensures |r| <= |s| && r == s[..|r|]
    ensures forall i :: |r| <= i < |s| ==> IsJsSpace(s[i])
    ensures |r| > 0 ==> !IsJsSpace(r[|r| - 1])
  {
    if |s| > 0 && IsJsSpace(s[|s| - 1]) then TrimEnd(s[..|s| - 1]) else s
  }

  /** No white space at either end. */
  predicate IsTrimmed(s: string) {
    |s| == 0 || (!IsJsSpace(s[0]) && !IsJsSpace(s[|s| - 1]))
  }

  /** `s.trim()`. */
  function Trim(s: string): (r: string)
    ensures IsTrimmed(r)
    ensures |r| <= |s|
    ensures r == [] <==> forall i :: 0 <= i < |s| ==> IsJsSpace(s[i])
    ensures IsTrimmed(s) ==> r == s
  {
    var t := TrimStart(s);
    var r := TrimEnd(t);
    assert |r| > 0 ==> r[0] == t[0];
    assert forall i :: 0 <= i < |t| ==> t[i] == s[|s| - |t| + i];
    r
  }

  /** `s.split(sep)` for a one-character separator: the pieces between
      separators, empty ones included, so there is always at least one. */
  function Split(s: string, sep: char): (r: seq<string>)
    ensures |r| >= 1
    ensures forall i :: 0 <= i < |r| ==> sep !in r[i]
  {
    if |s| == 0 then [""]
    else
      var rest := Split(s[1..], sep);
      if s[0] == sep then [""] + rest
      else [[s[0]] + rest[0]] + rest[1..]
  }

  /** `parts.join(sep)`. */
  function Join(parts: seq<string>, sep: char): string {
    if |parts| == 0 then ""
    else if |parts| == 1 then parts[0]
    else parts[0] + [sep] + Join(parts[1..], sep)
  }

  /** Joining the pieces with the separator gives back the original string. */
  lemma {:induction false} JoinSplit(s: string, sep: char)
    ensures Join(Split(s, sep), sep) == s
  {
    if |s| > 0 {
      var rest := Split(s[1..], sep);
      JoinSplit(s[1..], sep);
      if s[0] == sep {
        assert Join([""] + rest, sep) == "" + [sep] + Join(rest, sep);
        assert s == [s[0]] + s[1..];
      } else if |rest| == 1 {
        assert s == [s[0]] + s[1..];
      } else {
        var parts := [[s[0]] + rest[0]] + rest[1..];
        assert parts[1..] == rest[1..];
        assert Join(rest, sep) == rest[0] + [sep] + Join(rest[1..], sep);
        assert s == [s[0]] + s[1..];
      }
    }
  }

  lemma {:induction false} SplitNoSeparator(a: string, sep: char)
    requires sep !in a
    ensures Split(a, sep) == [a]
  {
    if |a| > 0 {
      SplitNoSeparator(a[1..], sep);
      assert a == [a[0]] + a[1..];
    }
  }

  lemma {:induction false} SplitAfterPiece(a: string, b: string, sep: char)
    requires sep !in a
    ensures Split(a + [sep] + b, sep) == [a] + Split(b, sep)
  {
    if |a| == 0 {
      assert a + [sep] + b == [sep] + b;
      assert ([sep] + b)[1..] == b;
    } else {
      assert (a + [sep] + b)[1..] == a[1..] + [sep] + b;
      SplitAfterPiece(a[1..], b, sep);
      assert a == [a[0]] + a[1..];
    }
  }

  /** Splitting a join of separator-free pieces gives back the pieces. */
  lemma {:induction false} SplitJoin(parts: seq<string>, sep: char)
    requires |parts| >= 1
    requires forall i :: 0 <= i < |parts| ==> sep !in parts[i]
    ensures Split(Join(parts, sep), sep) == parts
  {
    if |parts| == 1 {
      SplitNoSeparator(parts[0], sep);
    } else {
      SplitJoin(parts[1..], sep);
      SplitAfterPiece(parts[0], Join(parts[1..], sep), sep);
      assert parts == [parts[0]] + parts[1..];
    }
  }

  /** The value of `c` as a digit, for the radixes `parseInt` uses (10 and 16). */
  function DigitOf(c: char, radix: nat): (d: Option<nat>)
    ensures d.Some? ==> d.value < radix
    ensures radix == 10 ==> (d.Some? <==> IsDecimalDigit(c))
  {
    var v: int :=
      if '0' <= c <= '9' then c as int - '0' as int
      else if 'a' <= c <= 'z' then c as int - 'a' as int + 10
      else if 'A' <= c <= 'Z' then c as int - 'A' as int + 10
      else 99;
    if 0 <= v < radix then Some(v) else None
  }

  predicate AllDigits(s: string, radix: nat) {
    forall i :: 0 <= i < |s| ==> DigitOf(s[i], radix).Some?
  }

  /** Length of the longest prefix of `s` made of radix digits. */
  function DigitCount(s: string, radix: nat): (k: nat)
    ensures k <= |s|
    ensures AllDigits(s[..k], radix)
    ensures k < |s| ==> DigitOf(s[k], radix).None?
  {
    if |s| == 0 || DigitOf(s[0], radix).None? then 0
    else
      var k := DigitCount(s[1..], radix);
      assert s[..k + 1] == [s[0]] + s[1..][..k];
      k + 1
  }

  /** The number a string of digits denotes, most significant digit first. */
  function DigitsValue(s: string, radix: nat): nat
    requires AllDigits(s, radix)
  {
    if |s| == 0 then 0
    else DigitsValue(s[..|s| - 1], radix) * radix + DigitOf(s[|s| - 1], radix).value
  }

  /** `parseInt(s)` with no radix argument; `None` is `NaN`. A leading `-`
      negates, a leading `0x`/`0X` switches to hexadecimal, and only the
      longest digit prefix is read. */
  function ParseInt(s: string): (r: Option<int>)
    ensures (forall i :: 0 <= i < |s| ==> !IsDecimalDigit(s[i])) ==> r.None?
  {
    var t := TrimStart(s);
    var neg := |t| > 0 && t[0] == '-';
    var u := if |t| > 0 && (t[0] == '-' || t[0] == '+') then t[1..] else t;
    var hex := |u| >= 2 && u[0] == '0' && (u[1] == 'x' || u[1] == 'X');
    var radix := if hex then 16 else 10;
    var body := if hex then u[2..] else u;
    var k := DigitCount(body, radix);
    if k == 0 then None
    else
      assert hex ==> u[0] in s;
      assert !hex ==> body[0] in s;
      var v: int := DigitsValue(body[..k], radix);
      Some(if neg then -v else v)
  }

  function DigitChar(d: nat): (c: char)
    requires d < 10
    ensures IsDecimalDigit(c) && DigitOf(c, 10) == Some(d)
  {
    ('0' as int + d) as char
  }

  /** The decimal text of `n`, as `${n}` prints it. */
  function NatToString(n: nat): (r: string)
    ensures |r| >= 1
    ensures forall i :: 0 <= i < |r| ==> IsDecimalDigit(r[i])
    ensures r[0] == '0' ==> n == 0
  {
    if n < 10 then [DigitChar(n)] else NatToString(n / 10) + [DigitChar(n % 10)]
  }

  /** Reading back the printed digits yields the number. */
  lemma {:induction false} NatToStringValue(n: nat)
    ensures AllDigits(NatToString(n), 10)
    ensures DigitsValue(NatToString(n), 10) == n
  {
    if n >= 10 {
      NatToStringValue(n / 10);
      var s := NatToString(n);
      assert s[..|s| - 1] == NatToString(n / 10);
    }
  }

  /** A run of digits followed by a non-digit is read up to the non-digit. */
  lemma {:induction false} DigitCountOfDigitsThen(a: string, rest: string, radix: nat)
    requires AllDigits(a, radix)
    requires |rest| == 0 || DigitOf(rest[0], radix).None?
    ensures DigitCount(a + rest, radix) == |a|
  {
    if |a| > 0 {
      assert (a + rest)[1..] == a[1..] + rest;
      DigitCountOfDigitsThen(a[1..], rest, radix);
    }
  }

  /** `parseInt` of a plain run of decimal digits is the number they denote. */
  lemma ParseIntOfDigits(s: string)
    requires |s| >= 1 && forall i :: 0 <= i < |s| ==> IsDecimalDigit(s[i])
    ensures AllDigits(s, 10)
    ensures ParseInt(s) == Some(DigitsValue(s, 10))
  {
    assert !IsJsSpace(s[0]);
    var t := TrimStart(s);
    assert t == s;
    assert !(t[0] == '-' || t[0] == '+');
    assert !(|t| >= 2 && t[0] == '0' && (t[1] == 'x' || t[1] == 'X'));
    DigitCountOfDigitsThen(s, "", 10);
    assert s + "" == s;
    assert s[..|s|] == s;
  }

  /** `parseInt` reads back what `${n}` printed. */
  lemma ParseIntNatToString(n: nat)
    ensures ParseInt(NatToString(n)) == Some(n)
  {
    NatToStringValue(n);
    ParseIntOfDigits(NatToString(n));
  }

  /** The outcome of JavaScript's `parseFloat`. */
  datatype JsNumber = Finite(v: real) | Infinite(positive: bool) | NaN

  function Pow10(n: nat): (r: real)
    ensures r >= 1.0
  {
    if n == 0 then 1.0 else 10.0 * Pow10(n - 1)
  }

  /** The optional exponent part `e[+-]digits` at the start of `s`; `None`
      when it is absent or has no digits (and is then not consumed). */
  function ExponentOf(s: string): Option<int> {
    if |s| == 0 || !(s[0] == 'e' || s[0] == 'E') then None
    else
      var t := s[1..];
      var neg := |t| > 0 && t[0] == '-';
      var u := if |t| > 0 && (t[0] == '-' || t[0] == '+') then t[1..] else t;
      var k := DigitCount(u, 10);
      if k == 0 then None
      else
        var e: int := DigitsValue(u[..k], 10);
        Some(if neg then -e else e)
  }

  const InfinityText: string := "Infinity"

  /** `parseFloat(s)`: the longest prefix (after white space) that is a
      decimal literal, `Infinity` with its sign, or `NaN` when there is none.
      Values are exact; rounding to the nearest double is not modelled. */
  function ParseFloat(s: string): JsNumber {
    var t := TrimStart(s);
    var neg := |t| > 0 && t[0] == '-';
    var u := if |t| > 0 && (t[0] == '-' || t[0] == '+') then t[1..] else t;
    Signed(neg, UnsignedFloat(u))
  }

  /** A literal `<digits>.<digits>` reads as its exact decimal value. */
  lemma ParseFloatDecimal(a: string, f: string)
    requires |a| >= 1 && forall i :: 0 <= i < |a| ==> IsDecimalDigit(a[i])
    requires |f| >= 1 && forall i :: 0 <= i < |f| ==> IsDecimalDigit(f[i])
    ensures AllDigits(a, 10) && AllDigits(f, 10)
    ensures ParseFloat(a + "." + f) == Finite(Mantissa(a, f))
  {
    var s := a + "." + f;
    assert s == a + ("." + f);
    assert s[0] == a[0];
    assert !IsJsSpace(s[0]);
    assert TrimStart(s) == s;
    assert s[0] != '-' && s[0] != '+' && s[0] != 'I';
    assert ParseFloat(s) == UnsignedFloat(s);
    NotInfinity(s);
    DecimalWithFraction(a, f);
  }

  lemma DecimalWithFraction(a: string, f: string)
    requires |a| >= 1 && AllDigits(a, 10) && AllDigits(f, 10)
    ensures DecimalPrefix(a + ("." + f)) == Finite(Mantissa(a, f))
  {
    var s := a + ("." + f);
    var rest := "." + f;
    DigitCountOfDigitsThen(a, rest, 10);
    var A := DigitCount(s, 10);
    assert A == |a|;
    assert s[..A] == a && s[A..] == rest;
    var afterInt := s[A..];
    assert |afterInt| > 0 && afterInt[0] == '.';
    var frac := afterInt[1..];
    assert frac == f;
    DigitCountOfDigitsThen(f, "", 10);
    assert f + "" == f;
    var B := DigitCount(frac, 10);
    assert B == |f|;
    assert frac[..B] == f && frac[B..] == "";
    assert ExponentOf("") == None;
    assert Scale(Mantissa(s[..A], frac[..B]), ExponentOf(frac[B..])) == Mantissa(a, f);
  }

  /** Text that does not start with `I` is read as a decimal literal. */
  lemma NotInfinity(u: string)
    requires |u| > 0 && u[0] != 'I'
    ensures UnsignedFloat(u) == DecimalPrefix(u)
  {
    if |u| >= |InfinityText| {
      assert u[..|InfinityText|][0] == u[0];
      assert InfinityText[0] == 'I';
    }
  }

  function Signed(neg: bool, n: JsNumber): (r: JsNumber)
    ensures n.NaN? <==> r.NaN?
    ensures !neg ==> r == n
  {
    match n
    case Finite(v) => if neg then Finite(-v) else n
    case Infinite(p) => if neg then Infinite(!p) else n
    case NaN => NaN
  }

  /** An unsigned literal: `Infinity`, or a decimal literal. */
  function UnsignedFloat(u: string): (r: JsNumber)
    ensures (forall c :: c in u ==> !IsDecimalDigit(c) && c != 'I') ==> r.NaN?
  {
    if |u| >= |InfinityText| && u[..|InfinityText|] == InfinityText then
      assert u[0] == 'I' && u[0] in u;
      Infinite(true)
    else DecimalPrefix(u)
  }

  /** The value of `<whole>.<fraction>`. */
  function Mantissa(whole: string, fraction: string): real
    requires AllDigits(whole, 10) && AllDigits(fraction, 10)
  {
    DigitsValue(whole, 10) as real + DigitsValue(fraction, 10) as real / Pow10(|fraction|)
  }

  /** A mantissa scaled by an optional power-of-ten exponent. */
  function Scale(m: real, e: Option<int>): real {
    match e
    case None => m
    case Some(x) => if x >= 0 then m * Pow10(x) else m / Pow10(-x)
  }

  /** The longest prefix `digits [. digits] [exponent]` with at least one
      digit in the mantissa, read exactly. */
  function DecimalPrefix(u: string): (r: JsNumber)
    ensures (forall c :: c in u ==> !IsDecimalDigit(c)) ==> r.NaN?
    ensures r.NaN? || r.Finite?
  {
    var a := DigitCount(u, 10);
    var afterInt := u[a..];
    var hasDot := |afterInt| > 0 && afterInt[0] == '.';
    var frac := if hasDot then afterInt[1..] else "";
    var b := DigitCount(frac, 10);
    if a == 0 && b == 0 then NaN
    else
      assert a > 0 ==> u[0] in u;
      assert a == 0 ==> frac[0] == u[1] && u[1] in u;
      var tail := if hasDot then frac[b..] else afterInt;
      Finite(Scale(Mantissa(u[..a], frac[..b]), ExponentOf(tail)))
  }
}

=== FILE: notifier.dfy ===
/** The notifier: fans one alert out to every enabled channel, isolating
    each channel's failure and tallying the outcomes. Channel sends run
    sequentially here; whether a send succeeds is an input. */
module Notifier {
  import opened Common
  import opened PriceMonitor

  datatype ChannelName = ConsoleChannel | DesktopChannel

  /** The name a channel is configured by. */
  function ChannelLabel(n: ChannelName): string {
    match n
    case ConsoleChannel => "console"
    case DesktopChannel => "desktop"
  }

  /** A channel and the answer its `isEnabled()` gives. */
  datatype NotificationChannel = NotificationChannel(name: ChannelName, enabled: bool)

  /** The notifier's fixed channel list: console first, then desktop, each
      enabled exactly when its name is among the configured channels. */
  function DefaultChannels(configured: seq<string>): (cs: seq<NotificationChannel>)
    ensures |cs| == 2 && cs[0].name == ConsoleChannel && cs[1].name == DesktopChannel
    ensures forall i :: 0 <= i < |cs| ==> (cs[i].enabled <==> ChannelLabel(cs[i].name) in configured)
  {
    [NotificationChannel(ConsoleChannel, "console" in configured),
     NotificationChannel(DesktopChannel, "desktop" in configured)]
  }

  predicate IsEnabled(c: NotificationChannel) { c.enabled }

  /** One `send` call and whether its promise fulfilled. */
  datatype Delivery = Delivery(channel: ChannelName, alert: PriceAlert, delivered: bool)

  /** What `notify` did: nothing when no channel is enabled, otherwise one
      delivery per enabled channel in list order and the two tallies. */
  datatype NotifyReport =
    | NoChannelsEnabled
    | Sent(deliveries: seq<Delivery>, successful: nat, failed: nat)

  function CountDelivered(ds: seq<Delivery>): (n: nat)
    ensures n <= |ds|
  {
    if |ds| == 0 then 0
    else CountDelivered(ds[..|ds| - 1]) + (if ds[|ds| - 1].delivered then 1 else 0)
  }

  /** What `notify` promises: no channel is contacted when none is enabled;
      otherwise every enabled channel, in list order, is sent the same alert
      exactly once whatever the others do, and the tallies add up. */
  predicate NotifyDid(channels: seq<NotificationChannel>, alert: PriceAlert,
                      send: (ChannelName, PriceAlert) -> bool, report: NotifyReport)
  {
    var enabled := Filter(channels, IsEnabled);
    && (|enabled| == 0 <==> report == NoChannelsEnabled)
    && (report.Sent? ==>
          && |report.deliveries| == |enabled|
          && (forall i :: 0 <= i < |enabled| ==>
                report.deliveries[i] == Delivery(enabled[i].name, alert, send(enabled[i].name, alert)))
          && report.successful == CountDelivered(report.deliveries)
          && report.successful + report.failed == |enabled|)
  }

  /** `notify(alert)`: `send(c, a)` is whether channel `c` accepts alert `a`.
      A failing channel is counted, not propagated: the call always returns. */
  method Notify(channels: seq<NotificationChannel>, alert: PriceAlert,
                send: (ChannelName, PriceAlert) -> bool)
    returns (report: NotifyReport)
    ensures NotifyDid(channels, alert, send, report)
  {
    var enabled := Filter(channels, IsEnabled);
    if |enabled| == 0 {
      return NoChannelsEnabled;
    }
    var deliveries: seq<Delivery> := [];
    var successful: nat := 0;
    var failed: nat := 0;
    var i := 0;
    while i < |enabled|
      invariant 0 <= i <= |enabled|
      invariant |deliveries| == i
      invariant forall k :: 0 <= k < i ==>
                  deliveries[k] == Delivery(enabled[k].name, alert, send(enabled[k].name, alert))
      invariant successful == CountDelivered(deliveries)
      invariant successful + failed == i
    {
      var ok := send(enabled[i].name, alert);
      var before := deliveries;
      deliveries := deliveries + [Delivery(enabled[i].name, alert, ok)];
      assert deliveries[..|deliveries| - 1] == before;
      if ok {
        successful := successful + 1;
      } else {
        failed := failed + 1;
      }
      i := i + 1;
    }
    report := Sent(deliveries, successful, failed);
  }

  /** With the default list, the enabled channels are exactly the configured
      ones among console and desktop, console first. */
  lemma EnabledDefaultChannels(configured: seq<string>)
    ensures Filter(DefaultChannels(configured), IsEnabled)
            == (if "console" in configured then [NotificationChannel(ConsoleChannel, true)] else [])
               + (if "desktop" in configured then [NotificationChannel(DesktopChannel, true)] else [])
  {
    var cs := DefaultChannels(configured);
    assert cs == [cs[0]] + [cs[1]];
    FilterAppend([cs[0]], [cs[1]], IsEnabled);
    assert [cs[1]][1..] == [];
    assert [cs[0]][1..] == [];
  }
}

=== FILE: price_monitor.dfy ===
/** The feed-in price detector: a cooldown state machine whose only state is
    the time of the last alert. Times are milliseconds since the epoch; the
    clock reading of a check and the price fetch's outcome are inputs. */
module PriceMonitor {
  import opened Common
  import opened AmberTypes
  import opened IntervalSelection

  /** Minimum spacing between two alerts: 30 minutes. */
  const AlertCooldownMs: int := 30 * 60 * 1000

  /** `lastAlertTime`: `None` until the first alert. */
  datatype MonitorState = MonitorState(lastAlertTime: Option<int>)

  const InitialMonitor: MonitorState := MonitorState(None)

  /** The alert handed to the notifier: the current interval's figures, the
      threshold it was compared against, and the interval itself. */
  datatype PriceAlert = PriceAlert(
    price: real,
    spotPerKwh: real,
    descriptor: PriceDescriptor,
    renewables: real,
    timestamp: string,
    nemTime: string,
    endTime: string,
    threshold: real,
    estimate: Option<bool>,
    interval: Interval)

  /** The monitor is armed when it never alerted or the cooldown has elapsed. */
  predicate ShouldSendAlert(state: MonitorState, now: int) {
    state.lastAlertTime.None? || now - state.lastAlertTime.value >= AlertCooldownMs
  }

  /** The alert for the current interval; its `timestamp` is the interval's
      start, not the time the check ran. */
  function AlertFor(current: Interval, threshold: real): (a: PriceAlert)
    ensures a.interval == current && a.threshold == threshold && a.price == current.perKwh
    ensures a.spotPerKwh == current.spotPerKwh && a.descriptor == current.descriptor
    ensures a.renewables == current.renewables && a.estimate == current.estimate
    ensures a.timestamp == current.startTime && a.nemTime == current.nemTime && a.endTime == current.endTime
  {
    PriceAlert(current.perKwh, current.spotPerKwh, current.descriptor, current.renewables,
               current.startTime, current.nemTime, current.endTime, threshold,
               current.estimate, current)
  }

  /** What a successful check returns: the alert, if any, and the next state. */
  datatype CheckOutcome = CheckOutcome(alert: Option<PriceAlert>, state: MonitorState)

  /** `checkFeedInPrices`, given the outcome of the price fetch, the configured
      threshold and the clock. A failed fetch is rethrown unchanged. */
  function CheckFeedInPrices(state: MonitorState, fetched: Result<seq<Interval>, ApiError>,
                             threshold: real, now: int): (r: Result<CheckOutcome, ApiError>)
    ensures fetched.Failure? ==> r == Failure(fetched.error)
    ensures fetched.Success? ==> r.Success?
    ensures r.Success? ==>
      var current := CurrentOf(TargetPrices(fetched.value));
      && (r.value.alert.Some? <==>
            current.Some? && current.value.perKwh >= threshold && ShouldSendAlert(state, now))
      && (r.value.alert.Some? ==>
            r.value.alert.value.interval == current.value
            && r.value.alert.value.price == current.value.perKwh
            && r.value.alert.value.threshold == threshold
            && r.value.state == MonitorState(Some(now)))
      && (r.value.alert.None? ==> r.value.state == state)
  {
    match fetched
    case Failure(e) => Failure(e)
    case Success(prices) =>
      var target := TargetPrices(prices);
      if |target| == 0 then Success(CheckOutcome(None, state))
      else
        match CurrentOf(target)
        case None => Success(CheckOutcome(None, state))
        case Some(current) =>
          if current.perKwh >= threshold && ShouldSendAlert(state, now) then
            Success(CheckOutcome(Some(AlertFor(current, threshold)), MonitorState(Some(now))))
          else
            Success(CheckOutcome(None, state))
  }

  /** One check as the scheduler performs it: the fetch outcome, the
      threshold in force and the clock reading. */
  datatype CheckInput = CheckInput(fetched: Result<seq<Interval>, ApiError>, threshold: real, now: int)

  /** The current interval a fetch outcome offers, if any. */
  function CurrentPrice(fetched: Result<seq<Interval>, ApiError>): Option<Interval> {
    match fetched
    case Success(prices) => CurrentOf(TargetPrices(prices))
    case Failure(_) => None
  }

  /** Whether a check raises an alert: a current price at or above the
      threshold while the gate is open. */
  predicate Alerts(state: MonitorState, c: CheckInput) {
    var current := CurrentPrice(c.fetched);
    current.Some? && current.value.perKwh >= c.threshold && ShouldSendAlert(state, c.now)
  }

  /** The state after one check; only an alert moves it. */
  function StepState(state: MonitorState, c: CheckInput): MonitorState {
    if Alerts(state, c) then MonitorState(Some(c.now)) else state
  }

  /** The step functions agree with `CheckFeedInPrices`; a failed fetch
      (which the scheduler swallows) raises nothing and changes nothing. */
  lemma StepMatchesCheck(state: MonitorState, c: CheckInput)
    ensures var r := CheckFeedInPrices(state, c.fetched, c.threshold, c.now);
      && (r.Success? ==> (r.value.alert.Some? <==> Alerts(state, c)) && r.value.state == StepState(state, c))
      && (r.Failure? ==> !Alerts(state, c) && StepState(state, c) == state)
  {
  }

  /** The clock readings of the checks that raised an alert, in order. */
  function AlertTimes(state: MonitorState, checks: seq<CheckInput>): seq<int>
    decreases |checks|
  {
    if |checks| == 0 then []
    else
      (if Alerts(state, checks[0]) then [checks[0].now] else [])
      + AlertTimes(StepState(state, checks[0]), checks[1..])
  }

  /** The state after running all the checks. */
  function Replay(state: MonitorState, checks: seq<CheckInput>): MonitorState
    decreases |checks|
  {
    if |checks| == 0 then state else Replay(StepState(state, checks[0]), checks[1..])
  }

  /** Every time in `ts` is at least a cooldown after `t`. */
  predicate AllAfter(ts: seq<int>, t: int) {
    forall k :: 0 <= k < |ts| ==> ts[k] - t >= AlertCooldownMs
  }

  /** Any two times in `ts`, in order, are at least a cooldown apart. */
  predicate Spaced(ts: seq<int>) {
    forall i, j :: 0 <= i < j < |ts| ==> ts[j] - ts[i] >= AlertCooldownMs
  }

  /** The cooldown invariant: over any run of checks, every alert is at least
      30 minutes after the previous one (and after the starting state's last
      alert), so any two alerts are at least 30 minutes apart. No assumption
      on the clock is needed, because the gate measures from the last alert. */
  lemma {:induction false} AlertsAreSpaced(state: MonitorState, checks: seq<CheckInput>)
    decreases |checks|
    ensures state.lastAlertTime.Some? ==> AllAfter(AlertTimes(state, checks), state.lastAlertTime.value)
    ensures Spaced(AlertTimes(state, checks))
  {
    if |checks| > 0 {
      var c := checks[0];
      var next := StepState(state, c);
      var rest := AlertTimes(next, checks[1..]);
      AlertsAreSpaced(next, checks[1..]);
      StepFacts(state, c);
      if Alerts(state, c) {
        var ts := [c.now] + rest;
        assert AlertTimes(state, checks) == ts;
        SpacedAfterHead(c.now, rest);
        if state.lastAlertTime.Some? {
          forall k | 0 <= k < |ts|
            ensures ts[k] - state.lastAlertTime.value >= AlertCooldownMs
          {
            if k > 0 {
              assert ts[k] == rest[k - 1];
            }
          }
        }
      } else {
        assert next == state;
        assert AlertTimes(state, checks) == rest;
      }
    }
  }

  /** How one check moves the state: an alert records the clock reading and
      was allowed by the gate; anything else leaves the state alone. */
  lemma StepFacts(state: MonitorState, c: CheckInput)
    ensures Alerts(state, c) ==> StepState(state, c) == MonitorState(Some(c.now)) && ShouldSendAlert(state, c.now)
    ensures !Alerts(state, c) ==> StepState(state, c) == state
  {
  }

  lemma SpacedAfterHead(t: int, rest: seq<int>)
    requires AllAfter(rest, t) && Spaced(rest)
    ensures Spaced([t] + rest)
  {
    var ts := [t] + rest;
    forall i, j | 0 <= i < j < |ts|
      ensures ts[j] - ts[i] >= AlertCooldownMs
    {
      assert ts[j] == rest[j - 1];
      if i > 0 {
        assert ts[i] == rest[i - 1];
      }
    }
  }

  /** After a run, the monitor remembers the time of the run's last alert, or
      its starting state when the run raised none. */
  lemma {:induction false} ReplayRemembersLastAlert(state: MonitorState, checks: seq<CheckInput>)
    decreases |checks|
    ensures var ts := AlertTimes(state, checks);
      Replay(state, checks).lastAlertTime == if |ts| == 0 then state.lastAlertTime else Some(ts[|ts| - 1])
  {
    if |checks| > 0 {
      var c := checks[0];
      ReplayRemembersLastAlert(StepState(state, c), checks[1..]);
      if Alerts(state, c) {
        assert StepState(state, c) == MonitorState(Some(c.now));
      } else {
        assert StepState(state, c) == state;
      }
    }
  }

  /** A worked example: with threshold 15, a price of 16 alerts, a
      price of 20 ten minutes later is suppressed, and a price of 16 at 31
      minutes alerts again. */
  lemma CooldownScenario(t0: int, at16: Interval, at20: Interval)
    requires at16.kind == CurrentInterval && at16.channelType == FeedIn && at16.perKwh == 16.0
    requires at20.kind == CurrentInterval && at20.channelType == FeedIn && at20.perKwh == 20.0
    ensures var first := CheckFeedInPrices(InitialMonitor, Success([at16]), 15.0, t0);
      && first.Success? && first.value.alert.Some?
      && var second := CheckFeedInPrices(first.value.state, Success([at20]), 15.0, t0 + 10 * 60 * 1000);
      && second.Success? && second.value.alert.None?
      && var third := CheckFeedInPrices(second.value.state, Success([at16]), 15.0, t0 + 31 * 60 * 1000);
      && third.Success? && third.value.alert.Some?
  {
    assert TargetPrices([at16]) == [at16];
    assert TargetPrices([at20]) == [at20];
  }

  /** The general channel stands in when the account has no feed-in channel. */
  lemma GeneralFallback(state: MonitorState, prices: seq<Interval>, threshold: real, now: int)
    requires forall i :: 0 <= i < |prices| ==> prices[i].channelType != FeedIn
    requires |prices| > 0 && prices[0].channelType == General && prices[0].kind == CurrentInterval
    requires prices[0].perKwh >= threshold && state.lastAlertTime.None?
    ensures var r := CheckFeedInPrices(state, Success(prices), threshold, now);
      r.Success? && r.value.alert.Some? && r.value.alert.value.interval == prices[0]
  {
    var target := TargetPrices(prices);
    assert prices[0] in target;
    FindIsFilterHead(prices, IsGeneral);
    FindIsFilterHead(target, IsCurrent);
  }
}

=== FILE: rate_limit_banner.dfy ===
/** The dashboard's rate-limit banner: when it shows, which variant, the
    countdown to the reset and how that countdown is written. The rate limit
    is the one pushed by the server; the clock reading is an input. */
module RateLimitBanner {
  import opened Common
  import opened JsText
  import opened WebServer

  /** Threshold at or below which the banner appears. */
  const LowRemaining: int := 10

  /** Seconds until `reset` (read as a time in epoch seconds) at the clock
      reading `nowMs`; 0 when there is no rate limit or no (or a zero)
      reset time, and never negative. */
  function Countdown(rl: Option<RateLimitView>, nowMs: int): (r: int)
    ensures r >= 0
    ensures rl.None? || rl.value.reset.None? || rl.value.reset == Some(0) ==> r == 0
    ensures rl.Some? && rl.value.reset.Some? && rl.value.reset.value != 0 ==>
      (r == 0 <==> rl.value.reset.value <= nowMs / 1000)
      && (r > 0 ==> r == rl.value.reset.value - nowMs / 1000)
  {
    if rl.None? || rl.value.reset.None? || rl.value.reset.value == 0 then 0
    else Max(0, rl.value.reset.value - nowMs / 1000)
  }

  /** The countdown runs down as the clock advances, by whole seconds. */
  lemma CountdownNonIncreasing(rl: Option<RateLimitView>, t1: int, t2: int)
    requires t1 <= t2
    ensures Countdown(rl, t2) <= Countdown(rl, t1)
    ensures Countdown(rl, t1) - Countdown(rl, t2) <= (t2 - t1) / 1000 + 1
  {
    assert t1 / 1000 <= t2 / 1000;
    assert t2 / 1000 - t1 / 1000 <= (t2 - t1) / 1000 + 1;
  }

  /** The banner shows only while a rate limit with a known `remaining` at
      or below 10 is held. */
  predicate Visible(rl: Option<RateLimitView>) {
    rl.Some? && rl.value.remaining.Some? && rl.value.remaining.value <= LowRemaining
  }

  /** The "exceeded" variant: no request left. */
  predicate Exceeded(rl: Option<RateLimitView>) {
    rl.Some? && rl.value.remaining == Some(0)
  }

  /** `formatTime(seconds)`: `"<m>m <s>s"` with whole minutes when there is
      at least one, else `"<s>s"`. */
  function FormatTime(seconds: nat): string {
    var minutes := seconds / 60;
    var secs := seconds % 60;
    if minutes > 0 then NatToString(minutes) + "m " + NatToString(secs) + "s"
    else NatToString(secs) + "s"
  }

  /** Minutes are shown exactly from one minute on, and the text always
      ends with the seconds unit. */
  lemma FormatTimeShowsMinutes(seconds: nat)
    ensures 'm' in FormatTime(seconds) <==> seconds >= 60
    ensures FormatTime(seconds)[|FormatTime(seconds)| - 1] == 's'
  {
    var t := FormatTime(seconds);
    NoLetterInNat(seconds % 60, 'm');
    if seconds >= 60 {
      assert t[|NatToString(seconds / 60)|] == 'm';
    } else {
      assert t == NatToString(seconds) + "s";
    }
  }

  lemma NoLetterInNat(n: nat, c: char)
    requires !IsDecimalDigit(c)
    ensures c !in NatToString(n)
  {
  }

  /** Reads `"<digits><unit>"`. */
  function ReadUnit(piece: string, unit: char): (r: Option<nat>)
    ensures r.Some? ==> |piece| >= 2 && piece[|piece| - 1] == unit
  {
    if |piece| >= 2 && piece[|piece| - 1] == unit && AllDigits(piece[..|piece| - 1], 10)
    then Some(DigitsValue(piece[..|piece| - 1], 10))
    else None
  }

  /** The inverse reading of a formatted countdown, as a reader takes it:
      `"<s>s"` or `"<m>m <s>s"` with `m > 0` and `s < 60`. */
  function ParseDuration(text: string): Option<nat> {
    ParsePieces(Split(text, ' '))
  }

  function ParsePieces(pieces: seq<string>): Option<nat> {
    if |pieces| == 1 then ReadUnit(pieces[0], 's')
    else if |pieces| == 2 then
      match (ReadUnit(pieces[0], 'm'), ReadUnit(pieces[1], 's'))
      case (Some(m), Some(s)) => if m > 0 && s < 60 then Some(m * 60 + s) else None
      case _ => None
    else None
  }

  lemma ReadUnitOfNat(n: nat, unit: char)
    requires !IsDecimalDigit(unit)
    ensures ReadUnit(NatToString(n) + [unit], unit) == Some(n)
  {
    var p := NatToString(n) + [unit];
    assert p[..|p| - 1] == NatToString(n);
    NatToStringValue(n);
  }

  /** Round trip: the formatted countdown reads back as the number of seconds. */
  lemma ParseFormatTime(seconds: nat)
    ensures ParseDuration(FormatTime(seconds)) == Some(seconds)
  {
    if seconds < 60 {
      ParseSecondsOnly(seconds);
    } else {
      ParseMinutesAndSeconds(seconds);
    }
  }

  lemma ParseSecondsOnly(seconds: nat)
    requires seconds < 60
    ensures ParseDuration(FormatTime(seconds)) == Some(seconds)
  {
    var b := NatToString(seconds) + "s";
    NoLetterInNat(seconds, ' ');
    ReadUnitOfNat(seconds, 's');
    SplitNoSeparator(b, ' ');
    assert FormatTime(seconds) == b;
  }

  lemma ParseMinutesAndSeconds(seconds: nat)
    requires seconds >= 60
    ensures ParseDuration(FormatTime(seconds)) == Some(seconds)
  {
    var m, secs := seconds / 60, seconds % 60;
    var a := NatToString(m) + "m";
    var b := NatToString(secs) + "s";
    assert m > 0 && secs < 60 && m * 60 + secs == seconds;
    assert FormatTime(seconds) == a + [' '] + b;
    SplitMinutesAndSeconds(m, secs);
    assert Split(FormatTime(seconds), ' ') == [a, b];
    ReadMinutesAndSeconds(m, secs);
    assert ParseDuration(FormatTime(seconds)) == ParsePieces([a, b]);
  }

  lemma SplitMinutesAndSeconds(m: nat, secs: nat)
    ensures Split((NatToString(m) + "m") + [' '] + (NatToString(secs) + "s"), ' ')
            == [NatToString(m) + "m", NatToString(secs) + "s"]
  {
    var a := NatToString(m) + "m";
    var b := NatToString(secs) + "s";
    NoLetterInNat(m, ' ');
    NoLetterInNat(secs, ' ');
    assert ' ' !in a && ' ' !in b;
    SplitNoSeparator(b, ' ');
    SplitAfterPiece(a, b, ' ');
  }

  lemma ReadMinutesAndSeconds(m: nat, secs: nat)
    requires m > 0 && secs < 60
    ensures ParsePieces([NatToString(m) + "m", NatToString(secs) + "s"]) == Some(m * 60 + secs)
  {
    ReadUnitOfNat(m, 'm');
    ReadUnitOfNat(secs, 's');
  }

  /** What follows "N of L requests remaining." in the low variant: nothing
      when `reset` is null; the text `0` when it is 0 (a falsy number is
      rendered as itself); otherwise the countdown. */
  datatype ResetNote = NoNote | ZeroText | ResetsIn(countdown: string)

  /** The rendered banner. */
  datatype BannerView =
    | Hidden
    | ExceededBanner(countdown: string)
    | LowBanner(remaining: int, limit: Option<int>, note: ResetNote)

  function Banner(rl: Option<RateLimitView>, nowMs: int): (b: BannerView)
    ensures b.Hidden? <==> !Visible(rl)
    ensures b.ExceededBanner? <==> Exceeded(rl)
    ensures b.ExceededBanner? ==> b.countdown == FormatTime(Countdown(rl, nowMs))
    ensures b.LowBanner? ==> 1 <= b.remaining <= LowRemaining || b.remaining < 0
    ensures b.LowBanner? ==>
      && b.remaining == rl.value.remaining.value && b.limit == rl.value.limit
      && (b.note.NoNote? <==> rl.value.reset.None?)
      && (b.note.ZeroText? <==> rl.value.reset == Some(0))
    ensures b.LowBanner? && b.note.ResetsIn? ==> b.note.countdown == FormatTime(Countdown(rl, nowMs))
  {
    if !Visible(rl) then Hidden
    else if Exceeded(rl) then ExceededBanner(FormatTime(Countdown(rl, nowMs)))
    else
      var note := match rl.value.reset
        case None => NoNote
        case Some(r) => if r == 0 then ZeroText else ResetsIn(FormatTime(Countdown(rl, nowMs)));
      LowBanner(rl.value.remaining.value, rl.value.limit, note)
  }
}

=== FILE: scheduler.dfy ===
/** The price scheduler: reads the configured check interval once at start,
    registers either a repeating timer (`"<n>s"`) or a cron task, and on
    every tick runs one check-and-notify cycle whose failures are logged and
    swallowed. Registered handles are modelled as values; the timers
    themselves, and `cron.validate`, are outside the model. */
module Scheduler {
  import opened Common
  import opened JsText
  import opened AmberTypes
  import opened PriceMonitor
  import opened Notifier

  /** How the check interval string was read. */
  datatype Schedule = EverySeconds(seconds: int) | Calendar(expression: string)

  datatype SchedulerError = InvalidInterval(interval: string) | InvalidCronExpression(interval: string)

  predicate EndsWithS(interval: string) {
    |interval| > 0 && interval[|interval| - 1] == 's'
  }

  /** The interval text without its last character. */
  function DropLast(interval: string): string
    requires |interval| > 0
  {
    interval[..|interval| - 1]
  }

  /** The classification `start` makes: a string ending in `s` must have a
      prefix that `parseInt` reads as at least 1; anything else must pass the
      cron validator `cronValid`. */
  function ClassifyInterval(interval: string, cronValid: string -> bool): (r: Result<Schedule, SchedulerError>)
    ensures EndsWithS(interval) ==>
      var n := ParseInt(DropLast(interval));
      && (r.Success? <==> n.Some? && n.value >= 1)
      && (r.Success? ==> r.value == EverySeconds(n.value))
      && (r.Failure? ==> r.error == InvalidInterval(interval))
    ensures r.Success? && r.value.EverySeconds? ==> r.value.seconds >= 1
    ensures !EndsWithS(interval) ==>
      && (r.Success? <==> cronValid(interval))
      && (r.Success? ==> r.value == Calendar(interval))
      && (r.Failure? ==> r.error == InvalidCronExpression(interval))
  {
    if EndsWithS(interval) then
      match ParseInt(DropLast(interval))
      case Some(seconds) =>
        if seconds < 1 then Failure(InvalidInterval(interval)) else Success(EverySeconds(seconds))
      case None => Failure(InvalidInterval(interval))
    else if cronValid(interval) then Success(Calendar(interval))
    else Failure(InvalidCronExpression(interval))
  }

  /** `"<n>s"` for a positive `n` always takes the seconds path with `n`. */
  lemma SecondsIntervalAccepted(n: nat, cronValid: string -> bool)
    requires n >= 1
    ensures ClassifyInterval(NatToString(n) + "s", cronValid) == Success(EverySeconds(n))
  {
    var s := NatToString(n) + "s";
    assert DropLast(s) == NatToString(n);
    ParseIntNatToString(n);
  }

  /** A cron expression is never read as seconds, even if it mentions digits. */
  lemma DefaultIntervalIsCron(cronValid: string -> bool)
    ensures ClassifyInterval("*/5 * * * *", cronValid) ==
            if cronValid("*/5 * * * *") then Success(Calendar("*/5 * * * *"))
            else Failure(InvalidCronExpression("*/5 * * * *"))
  {
  }

  /** A registered `setInterval` timer, holding the delay it was asked for. */
  datatype TimerHandle = TimerHandle(periodMs: int)

  datatype CronTask = CronTask(expression: string, timezone: string)

  datatype SchedulerState = SchedulerState(
    task: Option<CronTask>,
    intervalTimer: Option<TimerHandle>,
    isRunning: bool,
    monitor: MonitorState)

  /** The scheduler's invariant: it reports running exactly when it holds a
      handle, and a timer's requested delay is a whole, positive number of
      seconds. */
  predicate Valid(s: SchedulerState) {
    && (s.isRunning <==> s.task.Some? || s.intervalTimer.Some?)
    && (s.intervalTimer.Some? ==> s.intervalTimer.value.periodMs >= 1000
                                  && s.intervalTimer.value.periodMs % 1000 == 0)
  }

  /** `start()`: a failed classification throws and registers nothing; the
      seconds path registers a timer with period `seconds * 1000` ms, the
      cron path a task bound to the configured timezone. Either way the
      monitor's state is untouched. */
  function Start(s: SchedulerState, interval: string, timezone: string,
                 cronValid: string -> bool): (r: Result<SchedulerState, SchedulerError>)
    ensures var c := ClassifyInterval(interval, cronValid);
      && (c.Failure? ==> r == Failure(c.error))
      && (c.Success? ==> r.Success?)
    ensures r.Success? ==> r.value.isRunning && r.value.monitor == s.monitor
    ensures r.Success? && EndsWithS(interval) ==>
              && r.value.intervalTimer == Some(TimerHandle(ParseInt(DropLast(interval)).value * 1000))
              && r.value.task == s.task
    ensures r.Success? && !EndsWithS(interval) ==>
              r.value.task == Some(CronTask(interval, timezone)) && r.value.intervalTimer == s.intervalTimer
  {
    match ClassifyInterval(interval, cronValid)
    case Failure(e) => Failure(e)
    case Success(EverySeconds(seconds)) =>
      Success(s.(intervalTimer := Some(TimerHandle(seconds * 1000)), isRunning := true))
    case Success(Calendar(expression)) =>
      Success(s.(task := Some(CronTask(expression, timezone)), isRunning := true))
  }

  /** A successful start keeps the invariant: the scheduler is running and
      a seconds timer asks for a whole, positive number of seconds. */
  lemma StartKeepsValid(s: SchedulerState, interval: string, timezone: string, cronValid: string -> bool)
    requires Valid(s)
    ensures var r := Start(s, interval, timezone, cronValid);
      r.Success? ==> Valid(r.value)
  {
    var c := ClassifyInterval(interval, cronValid);
    if c.Success? && c.value.EverySeconds? {
      WholeSeconds(c.value.seconds);
    }
  }

  lemma WholeSeconds(k: int)
    requires k >= 1
    ensures k * 1000 >= 1000 && (k * 1000) % 1000 == 0
  {
  }

  /** `stop()`: both handles cleared and the flag lowered. */
  function Stop(s: SchedulerState): (r: SchedulerState)
    ensures r.task.None? && r.intervalTimer.None? && !r.isRunning
    ensures r.monitor == s.monitor
    ensures Valid(r)
  {
    s.(task := None, intervalTimer := None, isRunning := false)
  }

  /** `getStatus()`. */
  function GetStatus(s: SchedulerState): bool {
    s.isRunning
  }

  /** Stopping twice is the same as stopping once, and a stopped scheduler
      reports that it is not running. */
  lemma StopIsIdempotent(s: SchedulerState)
    ensures Stop(Stop(s)) == Stop(s)
    ensures !GetStatus(Stop(s))
  {
  }

  /** What one check cycle did. */
  datatype CycleReport = NoAlert | Notified(report: NotifyReport) | CycleFailed(error: ApiError)

  /** `checkPrices()` (also what `runImmediately()` and every tick run): a
      monitor check, then `notify` exactly when it returned an alert. A
      failed fetch is caught: it is reported and nothing changes. */
  method CheckPrices(s: SchedulerState, fetched: Result<seq<Interval>, ApiError>, threshold: real,
                     now: int, channels: seq<NotificationChannel>,
                     send: (ChannelName, PriceAlert) -> bool)
    returns (next: SchedulerState, cycle: CycleReport)
    ensures next.task == s.task && next.intervalTimer == s.intervalTimer && next.isRunning == s.isRunning
    ensures var r := CheckFeedInPrices(s.monitor, fetched, threshold, now);
      && (r.Failure? ==> cycle == CycleFailed(r.error) && next == s)
      && (r.Success? ==> next.monitor == r.value.state)
      && (r.Success? && r.value.alert.None? ==> cycle == NoAlert)
      && (r.Success? && r.value.alert.Some? ==>
            cycle.Notified? && NotifyDid(channels, r.value.alert.value, send, cycle.report))
  {
    var r := CheckFeedInPrices(s.monitor, fetched, threshold, now);
    match r
    case Failure(e) =>
      next, cycle := s, CycleFailed(e);
    case Success(outcome) =>
      next := s.(monitor := outcome.state);
      match outcome.alert
      case None =>
        cycle := NoAlert;
      case Some(alert) =>
        var report := Notify(channels, alert, send);
        cycle := Notified(report);
  }
}

=== FILE: web_server.dfy ===
/** The dashboard server's price and usage buffers and the update it pushes
    to browser sockets. The fetch outcome, the rate limit the client holds
    after it, the clock and each socket's open state are inputs; the push
    itself is modelled as the message and the list of sockets it goes to. */
module WebServer {
  import opened Common
  import opened AmberTypes
  import opened IntervalSelection
  import opened FileStorage
  import opened AmberClient
  import opened JsText

  /** 24 hours of 5-minute intervals. */
  const MaxHistory: nat := 288

  /** One row of the usage buffer, with its defaults filled in. */
  datatype UsageRecord = UsageRecord(kwh: real, cost: real, nemTime: string, channelType: ChannelType,
                                     quality: string, timestamp: int)

  /** The server's in-memory buffers, newest price first. */
  datatype ServerState = ServerState(priceHistory: seq<PriceHistoryRecord>, usageHistory: seq<UsageRecord>)

  /** A browser connection; `open` is whether its ready state is OPEN. */
  datatype Socket = Socket(id: nat, open: bool)

  predicate IsOpen(c: Socket) { c.open }

  /** The `current` part of the pushed data. */
  datatype CurrentView = CurrentView(price: real, spotPerKwh: real, descriptor: PriceDescriptor,
                                     renewables: real, estimate: bool, spikeStatus: SpikeStatus,
                                     endTime: string, nemTime: string)

  /** One entry of the pushed forecast list. */
  datatype ForecastView = ForecastView(price: real, nemTime: string, descriptor: PriceDescriptor,
                                       renewables: real, kind: IntervalKind)

  /** The pushed rate-limit fields; `None` is JSON null (absent, empty, or
      not a number). */
  datatype RateLimitView = RateLimitView(limit: Option<int>, remaining: Option<int>, reset: Option<int>)

  /** The `price-update` message. */
  datatype PriceUpdate = PriceUpdate(current: Option<CurrentView>, forecast: seq<ForecastView>,
                                     history: seq<PriceHistoryRecord>, rateLimit: RateLimitView)

  /** A missing or empty header value gives `None`, otherwise `parseInt` of it. */
  function RateLimitField(v: Option<string>): (r: Option<int>)
    ensures !Truthy(v) ==> r.None?
    ensures Truthy(v) ==> r == ParseInt(v.value)
  {
    if Truthy(v) then ParseInt(v.value) else None
  }

  /** A header holding a plain decimal count is pushed as that count. */
  lemma RateLimitFieldOfCount(n: nat)
    ensures RateLimitField(Some(NatToString(n))) == Some(n)
  {
    ParseIntNatToString(n);
  }

  function RateLimitViewOf(rl: RateLimit): (r: RateLimitView)
    ensures r.limit == RateLimitField(rl.limit)
    ensures r.remaining == RateLimitField(rl.remaining)
    ensures r.reset == RateLimitField(rl.reset)
  {
    RateLimitView(RateLimitField(rl.limit), RateLimitField(rl.remaining), RateLimitField(rl.reset))
  }

  function CurrentViewOf(c: Interval): (v: CurrentView)
    ensures v.price == c.perKwh && v.nemTime == c.nemTime && v.descriptor == c.descriptor
    ensures v.spotPerKwh == c.spotPerKwh && v.renewables == c.renewables
    ensures v.spikeStatus == c.spikeStatus && v.endTime == c.endTime
    ensures v.estimate <==> c.estimate == Some(true)
  {
    CurrentView(c.perKwh, c.spotPerKwh, c.descriptor, c.renewables,
                c.estimate.Some? && c.estimate.value, c.spikeStatus, c.endTime, c.nemTime)
  }

  function ForecastViewOf(f: Interval): ForecastView {
    ForecastView(f.perKwh, f.nemTime, f.descriptor, f.renewables, f.kind)
  }

  function ForecastViews(fs: seq<Interval>): (r: seq<ForecastView>)
    ensures |r| == |fs|
    ensures forall i :: 0 <= i < |fs| ==> r[i] == ForecastViewOf(fs[i])
  {
    seq(|fs|, i requires 0 <= i < |fs| => ForecastViewOf(fs[i]))
  }

  /** The history record made from the current interval at time `now`. */
  function RecordOf(c: Interval, now: int): PriceHistoryRecord {
    PriceHistoryRecord(c.perKwh, c.nemTime, c.descriptor, c.renewables, now, Some(c.channelType))
  }

  /** The buffer after a prepend: the new record in front, cut back to
      `MaxHistory` only when it has grown past it. */
  function PushHistory(history: seq<PriceHistoryRecord>, rec: PriceHistoryRecord): (r: seq<PriceHistoryRecord>)
    ensures r == Take([rec] + history, MaxHistory)
    ensures |r| <= MaxHistory && r[0] == rec
    ensures r[1..] == Take(history, MaxHistory - 1)
  {
    var grown := [rec] + history;
    if |grown| > MaxHistory then grown[..MaxHistory] else grown
  }

  /** What one `sendPriceUpdate` did. `persisted` is the buffer handed to
      `saveHistory`, whose outcome is not awaited; `recipients` are the
      sockets sent the message. */
  datatype UpdateOutcome = UpdateOutcome(state: ServerState, persisted: Option<seq<PriceHistoryRecord>>,
                                         message: Option<PriceUpdate>, recipients: seq<Socket>)

  /** `sendPriceUpdate(ws?)`. The sockets are `target` when one is given,
      otherwise every connected client. A failed fetch is logged: nothing
      changes and nothing is sent. */
  function SendPriceUpdate(st: ServerState, fetched: Result<seq<Interval>, ApiError>, rateLimit: RateLimit,
                           now: int, target: Option<Socket>, clients: seq<Socket>): (r: UpdateOutcome)
    ensures fetched.Failure? ==> r == UpdateOutcome(st, None, None, [])
    ensures r.state.usageHistory == st.usageHistory
    ensures fetched.Success? ==>
      var target_ := TargetPrices(fetched.value);
      var current := CurrentOf(target_);
      && r.message.Some?
      && (current.None? ==> r.state == st && r.persisted.None? && r.message.value.current.None?)
      && (current.Some? ==>
            && r.state.priceHistory == Take([RecordOf(current.value, now)] + st.priceHistory, MaxHistory)
            && r.persisted == Some(r.state.priceHistory)
            && r.message.value.current == Some(CurrentViewOf(current.value)))
      && r.message.value.forecast == ForecastViews(ForecastsOf(target_))
      && r.message.value.history == r.state.priceHistory
      && r.message.value.rateLimit == RateLimitViewOf(rateLimit)
      && (target.Some? ==> r.recipients == [target.value])
      && (target.None? ==> r.recipients == Filter(clients, IsOpen))
  {
    match fetched
    case Failure(_) => UpdateOutcome(st, None, None, [])
    case Success(prices) =>
      var target_ := TargetPrices(prices);
      var current := CurrentOf(target_);
      var history := if current.Some? then PushHistory(st.priceHistory, RecordOf(current.value, now))
                     else st.priceHistory;
      var message := PriceUpdate(if current.Some? then Some(CurrentViewOf(current.value)) else None,
                                 ForecastViews(ForecastsOf(target_)), history, RateLimitViewOf(rateLimit));
      var recipients := if target.Some? then [target.value] else Filter(clients, IsOpen);
      UpdateOutcome(ServerState(history, st.usageHistory), if current.Some? then Some(history) else None,
                    Some(message), recipients)
  }

  /** After any update that found a current interval the buffer is within
      `MaxHistory`, its newest record first, and the older entries follow in
      their previous order. */
  lemma UpdateBoundsHistory(st: ServerState, prices: seq<Interval>, rateLimit: RateLimit, now: int,
                            target: Option<Socket>, clients: seq<Socket>)
    requires CurrentOf(TargetPrices(prices)).Some?
    ensures var h := SendPriceUpdate(st, Success(prices), rateLimit, now, target, clients).state.priceHistory;
      && 1 <= |h| <= MaxHistory
      && h[0].nemTime == CurrentOf(TargetPrices(prices)).value.nemTime
      && h[1..] == Take(st.priceHistory, MaxHistory - 1)
  {
  }

  /** No deduplication: two updates that see the same current interval add
      two records with the same `nemTime`. */
  lemma SameIntervalTwice(st: ServerState, prices: seq<Interval>, rateLimit: RateLimit, t1: int, t2: int,
                          clients: seq<Socket>)
    requires CurrentOf(TargetPrices(prices)).Some?
    ensures var first := SendPriceUpdate(st, Success(prices), rateLimit, t1, None, clients).state;
            var second := SendPriceUpdate(first, Success(prices), rateLimit, t2, None, clients).state;
      && |second.priceHistory| >= 2
      && second.priceHistory[0].nemTime == second.priceHistory[1].nemTime
      && second.priceHistory[0].timestamp == t2 && second.priceHistory[1].timestamp == t1
  {
  }

  /** The server's `start`: the buffer is whatever the file holds, which may
      be longer than `MaxHistory` until the next prepend cuts it back. */
  function StartServer(file: HistoryFile): (st: ServerState)
    ensures st.priceHistory == LoadHistory(file) && st.usageHistory == []
  {
    ServerState(LoadHistory(file), [])
  }

  /** The first update that finds a current interval cuts a loaded buffer
      of any length back to `MaxHistory`, keeping the newest loaded records
      after the new one. */
  lemma StartThenUpdate(file: HistoryFile, prices: seq<Interval>, rateLimit: RateLimit, now: int,
                        target: Option<Socket>, clients: seq<Socket>)
    requires CurrentOf(TargetPrices(prices)).Some?
    ensures var h := SendPriceUpdate(StartServer(file), Success(prices), rateLimit, now, target, clients).state.priceHistory;
      && 1 <= |h| <= MaxHistory
      && h[0] == RecordOf(CurrentOf(TargetPrices(prices)).value, now)
      && h[1..] == Take(LoadHistory(file), MaxHistory - 1)
  {
  }

  /** The loaded buffer is not cut back until a current interval arrives. */
  lemma LoadedHistoryMayExceedCap(records: seq<PriceHistoryRecord>, c: Interval, now: int)
    requires |records| == DefaultMaxRecords
    ensures |StartServer(Stored(records)).priceHistory| > MaxHistory
    ensures c.kind == CurrentInterval && c.channelType == FeedIn ==>
      |SendPriceUpdate(StartServer(Stored(records)), Success([c]), NoRateLimit, now, None, []).state.priceHistory| == MaxHistory
  {
    if c.kind == CurrentInterval && c.channelType == FeedIn {
      assert TargetPrices([c]) == [c];
    }
  }

  /** A missing energy or cost reads as 0 and a missing or empty quality as
      estimated; the capture time is recorded. */
  function UsageRecordOf(item: UsageItem, now: int): (r: UsageRecord)
    ensures r.kwh == (if item.kwh.Some? then item.kwh.value else 0.0)
    ensures r.cost == (if item.cost.Some? then item.cost.value else 0.0)
    ensures r.quality == (if Truthy(item.quality) then item.quality.value else "estimated")
    ensures r.nemTime == item.nemTime && r.channelType == item.channelType && r.timestamp == now
  {
    UsageRecord(if item.kwh.Some? then item.kwh.value else 0.0,
                if item.cost.Some? then item.cost.value else 0.0,
                item.nemTime, item.channelType,
                if Truthy(item.quality) then item.quality.value else "estimated",
                now)
  }

  /** `updateUsageData()`: a non-empty response replaces the usage buffer
      with its first `MaxHistory` rows, defaults filled in; an empty response
      or a failed fetch leaves the buffer as it was. */
  function UpdateUsageData(st: ServerState, fetched: Result<seq<UsageItem>, ApiError>, now: int)
    : (r: ServerState)
    ensures r.priceHistory == st.priceHistory
    ensures fetched.Failure? || |fetched.value| == 0 ==> r == st
    ensures fetched.Success? && |fetched.value| > 0 ==>
      && |r.usageHistory| == Min(|fetched.value|, MaxHistory)
      && forall i :: 0 <= i < |r.usageHistory| ==> r.usageHistory[i] == UsageRecordOf(fetched.value[i], now)
  {
    match fetched
    case Failure(_) => st
    case Success(usage) =>
      if |usage| > 0 then
        var rows := seq(|usage|, i requires 0 <= i < |usage| => UsageRecordOf(usage[i], now));
        st.(usageHistory := Take(rows, MaxHistory))
      else st
  }
}
